=== FILE: README.md ===
# A verified model of the `CsvParser` template (Lab4/Main.cpp)

`CsvParser<Args...>` reads a character stream as rows of delimited fields and
yields one `std::tuple<Args...>` per row through an input iterator. This
project models the logic of that template in Dafny and proves properties of
the model. It has seven modules, one file each:

- `RowSplitter` (`row_splitter.dfy`) models `Iterator::parseLine`. It scans
  one row with an escape flag and a field accumulator. The scan is a pure
  recursive function `Split`, and a method `ParseLine` mirrors the C++ loop
  and is proved equal to it.
- `FieldDecoder` (`field_decoder.dfy`) models `TypeHandler<T>::process`.
  - A string field is copied as it is.
  - An `int` or `char` field that is empty or all white space stores
    nothing: the stream's sentry fails and the slot keeps the indeterminate
    value of its uninitialised local, written `Unset`.
  - Otherwise an `int` field is read the way `istringstream >> int` reads
    it: leading white space, an optional sign, then the longest run of
    digits. When no digit is found the value is 0. A value out of range
    saturates at `INT_MIN`/`INT_MAX`.
  - Otherwise a `char` field gets the first character that is not white
    space.
  - A `float` field is kept as its source text.
- `RecordBuilder` (`record_builder.dfy`) models `TuplePlaceholder::add`.
  The tuple type is a schema, a sequence of type tags. The tuple is a
  record, a sequence of values. Slot N is decoded from field N.
- `InputStream` (`input_stream.dfy`) models the stream and
  `std::getline`. A stream is the text not yet read plus its `eof` and
  `fail` bits. This module also holds the constructor's loop that skips
  rows.
- `CsvParser` (`csv_parser.dfy`) models the parser and its iterator:
  construction, `begin()`, `end()`, `operator++`, `operator*` and
  `operator!=`. It also unrolls the range-`for` loop a client writes over
  the parser.
- `CheckedIterator` (`checked_iterator.dfy`) holds the corrected
  `operator++` described under Findings.
- `TextSearch` (`text_search.dfy`) finds the first occurrence of a
  character. Both `getline` and the row model use it.

Inputs are in-memory strings, so the program's I/O becomes parameters.
Characters are Dafny `char`s. No encoding is modelled.

## Model

| member | source | states |
|---|---|---|
| RowSplitter.Split | Lab4/Main.cpp:144-176 | `parseLine` closes a field at each column delimiter met while the escape flag is clear, and closes one more at the end of the row. So a row has one field more than it has such delimiters, and never zero fields. |
| RowSplitter.ParseLine | Lab4/Main.cpp:144-176 | The C++ loop, including the `++i` that skips the second of a doubled escape symbol. It computes exactly `Split`'s fields, and its delimiter counter, which is the final `_cur_col`, is one less than the number of fields. |
| RowSplitter.ScanFieldCount | Lab4/Main.cpp:151-173 | The same count for the scan from any state. |
| RowSplitter.SplitEmptyLine | Lab4/Main.cpp:173 | The empty row is exactly one empty field. |
| RowSplitter.SplitWithoutEscape | Lab4/Main.cpp:152-156 | When a row has no escape symbol, its fields are exactly the pieces between column delimiters, and joining them with the delimiter gives the row back. |
| RowSplitter.ScanNoEscape | Lab4/Main.cpp:152-171 | When no escape symbol is left, the rest of the scan is the delimiter-separated pieces, with the open field continued by the first piece. |
| RowSplitter.JoinSplitOn | Lab4/Main.cpp:152-156 | Joining the delimiter-separated pieces of a text with the delimiter gives the text back. |
| RowSplitter.SplitOnJoin | Lab4/Main.cpp:152-156 | Pieces that hold no delimiter, once joined, split back into the same pieces. |
| RowSplitter.SplitSingleField | Lab4/Main.cpp:169-173 | A row with neither a column delimiter nor an escape symbol is one field equal to the row. |
| RowSplitter.ScanPlain | Lab4/Main.cpp:169-171 | A stretch with neither a column delimiter nor an escape symbol is only appended to the open field. |
| RowSplitter.LoneEscapeToggles | Lab4/Main.cpp:157-167 | A lone escape symbol flips the escape flag and adds nothing to the field. |
| RowSplitter.DoubledEscapeIsLiteral | Lab4/Main.cpp:157-161 | A doubled escape symbol adds one escape character and leaves the flag as it was, inside or outside a quoted span. |
| RowSplitter.QuotedDelimiterExample | Lab4/Main.cpp:149-173 | `a,"b,c",d` with `,` and `"` splits into `a`, `b,c` and `d`. |
| RowSplitter.OpenSpanExample | Lab4/Main.cpp:149-173 | A quoted span still open at the end of the row is not an error: `a,"b,c` gives `a` and `b,c`. |
| RowSplitter.FourQuotesExample | Lab4/Main.cpp:157-161 | Because the doubled-escape test comes first, the row `""""` is the field `""`. |
| RowSplitter.ScanDoubled | Lab4/Main.cpp:157-161 | A stretch with every escape symbol doubled reads back as the undoubled stretch, and the flag is unchanged. |
| RowSplitter.ScanQuoted | Lab4/Main.cpp:152-171 | One field written by `Quote` (escapes doubled, and a quoted span when it holds the delimiter) scans back to that field and leaves the flag clear. |
| RowSplitter.SplitRender | Lab4/Main.cpp:144-176 | Round trip: for any non-empty list of fields, whatever they contain, splitting their rendering gives back exactly that list, provided the delimiter differs from the escape symbol. |
| FieldDecoder.Decode | Lab4/Main.cpp:47-61 | The decoded value has the column's type, or is `Unset` for an `int` or `char` column whose field is blank. A string column holds the field verbatim. A stored `int` lies in the 32-bit range. |
| FieldDecoder.ExtractInt | Lab4/Main.cpp:48-54 | Whatever the text, `istringstream >> int` either stores a value in the 32-bit range or stores nothing. |
| FieldDecoder.ExtractIntSpec | Lab4/Main.cpp:48-54 | `istringstream >> int` stores nothing exactly when the field is empty or all white space. |
| FieldDecoder.ExtractChar | Lab4/Main.cpp:48-54 | `istringstream >> char` either stores a character or leaves the `char` unset. |
| FieldDecoder.SkipSpacePrefix | Lab4/Main.cpp:48-54 | Leading white space before a character that is not white space is exactly what is skipped. |
| FieldDecoder.DigitRunStops | Lab4/Main.cpp:48-54 | The digit run of digits followed by a non-digit is exactly those digits. |
| FieldDecoder.ExtractIntDecimal | Lab4/Main.cpp:48-54 | An `int` field that is white space, then a decimal numeral, then a non-digit tail decodes to that number, saturated at `INT_MIN`/`INT_MAX`. |
| FieldDecoder.ExtractIntRoundTrip | Lab4/Main.cpp:48-54 | Every 32-bit integer printed in decimal decodes back to itself. |
| FieldDecoder.ExtractIntNoDigits | Lab4/Main.cpp:48-54 | An `int` field that holds a character other than white space but no digit at all decodes to 0. |
| FieldDecoder.ExtractIntNoLeadingDigit | Lab4/Main.cpp:48-54 | An `int` field whose white space and optional `+` or `-` are followed by something other than a digit decodes to 0, whatever comes later (`a1`, `-x5`, `+ 7`, `--1`). |
| FieldDecoder.ExtractSignedDigits | Lab4/Main.cpp:48-54 | Once white space is skipped, an optional `+` or `-` and then a run of digits that ends at a non-digit or the end give the saturated signed value of those digits. |
| FieldDecoder.ExtractIntSigned | Lab4/Main.cpp:48-54 | A whole `int` field made of white space, an optional `+` or `-`, and a run of digits that ends at a non-digit or the end stores the saturated signed value of those digits. |
| FieldDecoder.Clamp | Lab4/Main.cpp:48-54 | A value in range is kept. Anything larger becomes `INT_MAX` and anything smaller becomes `INT_MIN`. |
| FieldDecoder.ExtractCharSpec | Lab4/Main.cpp:48-54 | A `char` field is unset exactly when it is all white space. Otherwise the value is the first character of the field that is not white space. |
| FieldDecoder.SkipSpaceSuffix | Lab4/Main.cpp:48-54 | Skipping white space drops a prefix made only of white space characters. |
| FieldDecoder.DigitRunSpec | Lab4/Main.cpp:48-54 | The digit run is maximal: all digits, followed by a non-digit or the end. |
| FieldDecoder.DigitsValueOfNatDigits | Lab4/Main.cpp:48-54 | The digits of a natural number read back as that number. |
| FieldDecoder.DecodeIntFailureExample | Lab4/Main.cpp:48-54 | The `int` field `abc` decodes to 0. |
| FieldDecoder.DecodeIntBlankExample | Lab4/Main.cpp:48-54 | The `int` fields `` (empty) and two spaces store nothing, rather than 0. |
| FieldDecoder.DecodeIntPlusExample | Lab4/Main.cpp:48-54 | The `int` field ` +7` decodes to 7: a leading `+` is accepted. |
| FieldDecoder.DecodeIntExample | Lab4/Main.cpp:48-54 | The `int` field ` -42x` decodes to -42: extraction stops at the first non-digit. |
| FieldDecoder.DecodeCharExample | Lab4/Main.cpp:48-54 | The `char` field ` q` decodes to `q`. The field ` ` leaves the `char` unset. |
| FieldDecoder.DefaultValue | Lab4/Main.cpp:184 | A value-initialised tuple element has its column's type. |
| RecordBuilder.BuildSlots | Lab4/Main.cpp:65-87 | Slot i of the record is field i decoded with column i's type. The record is well typed, and string slots hold their field verbatim. |
| RecordBuilder.Build | Lab4/Main.cpp:175 | `parseLine` fills every slot of the tuple: the record has one value per column. |
| RecordBuilder.PlaceFrom | Lab4/Main.cpp:66-87 | Placement step n, with the recursion through `add<N + 1>` down to the last-slot specialisation, fills exactly the slots n to the last one. |
| RecordBuilder.PlaceSlots | Lab4/Main.cpp:65-87 | The unrolled placement as a whole puts, for every position i, the handled field i in slot i. |
| RecordBuilder.PlaceFromSlot | Lab4/Main.cpp:68-75 | Placement step n, recursing on n + 1, fills slot i from field i. |
| RecordBuilder.BuildIgnoresExtraFields | Lab4/Main.cpp:66-87 | Fields past the schema's length are never read: cutting them off gives the same record. |
| RecordBuilder.DefaultRecord | Lab4/Main.cpp:184 | Before the first row, every slot holds its type's value-initialised default. |
| InputStream.GetLine | Lab4/Main.cpp:127 | `getline` succeeds exactly on a good stream with text left. A failed read consumes nothing. Once `eof` is set it stays set. |
| InputStream.GetLineSpec | Lab4/Main.cpp:127 | A read succeeds exactly on a good stream with text left. The stored line never holds the delimiter, and with the delimiter when there was one it is exactly the text consumed. A failed read consumes nothing and sets `fail`. `eof` is never cleared. |
| InputStream.GetLineRows | Lab4/Main.cpp:127 | On a good stream, one read delivers the first remaining row and leaves the others. |
| InputStream.GetLineTerminated | Lab4/Main.cpp:127 | On a good stream that starts with a row and a delimiter, `getline` stores that row, consumes the delimiter and leaves the stream good. |
| InputStream.SkipRows | Lab4/Main.cpp:105-108 | The skip loop only consumes text. Skipping at least one row of a good stream with text left consumes some. A stream already at its end stays there. |
| InputStream.SkipRowsStops | Lab4/Main.cpp:105-108 | Once a skipped read fails or hits the end, no row is left. |
| InputStream.RowsNoDelimiter | Lab4/Main.cpp:127 | No row handed to `parseLine` holds the row delimiter. |
| InputStream.RowsOfTerminated | Lab4/Main.cpp:127 | Writing rows that hold no delimiter, each followed by the delimiter, and reading them back gives the same rows. |
| InputStream.TerminatedOfRows | Lab4/Main.cpp:127 | A text that is empty or ends in the delimiter is its rows written back, each followed by the delimiter. |
| InputStream.SkipRowsAfterEof | Lab4/Main.cpp:105-108 | Once `eof` is set, the skip loop reads nothing more. |
| InputStream.SkipRowsEof | Lab4/Main.cpp:105-108 | Skipping n rows leaves the stream at its end exactly when the text had fewer than n row delimiters. Otherwise the stream stays good. |
| InputStream.SkipRowsDiscards | Lab4/Main.cpp:105-108 | Skipping discards exactly the first n rows, or all rows when there are fewer. Running out of rows raises no error. |
| InputStream.SkipRowsSettled | Lab4/Main.cpp:105-108 | A stream that is good or fully read stays so through the skip loop. |
| InputStream.SkipTerminated | Lab4/Main.cpp:105-108 | On terminated rows, skipping n of them (n at most the number of rows) leaves a good stream holding exactly the rest. |
| CsvParser.DefaultConfigExample | Lab4/Main.cpp:102-103 | With the constructor's default column delimiter and escape symbol (comma and double quote), `a,"b,c",d` splits into `a`, `b,c` and `d`. |
| CsvParser.NewParser | Lab4/Main.cpp:102-109 | Construction keeps the separators, only consumes text, and a stream already at its end stays there. |
| CsvParser.NewParserSkips | Lab4/Main.cpp:102-108 | Construction keeps the separators. The rows left are the input's rows after dropping `skip_lines` of them. The stream ends up at its end exactly when fewer than `skip_lines` delimiters were present. |
| CsvParser.Consume | Lab4/Main.cpp:126-134 | After the test in `++`: a successful `getline` keeps the iterator attached, counts one more row, and stores a full record; the column counter is at least the schema's length minus one. A failed `getline` detaches the iterator and keeps the row counter and the record. |
| CsvParser.Advance | Lab4/Main.cpp:124-137 | `++` never attaches an iterator. Either it leaves the row counter and the record unchanged, or it counts exactly one more row, stays attached, and holds a full record. |
| CsvParser.Begin | Lab4/Main.cpp:187-189 | `begin()` holds a full record and the parser's separators. Either it has read the first row, or it read nothing and holds the value-initialised record. |
| CsvParser.End | Lab4/Main.cpp:191-193 | `end()` has no stream, and `++` on it changes nothing. |
| CsvParser.NotEqual | Lab4/Main.cpp:139-141 | Two iterators of one parser differ exactly when one is attached and the other is not, whichever side is `end()`. |
| CsvParser.NotEqualEnd | Lab4/Main.cpp:139-141 | The range-`for` test `it != end()` holds exactly while `it` is attached, and so does `end() != it`. |
| CsvParser.Run | Lab4/Main.cpp:216 | The range-`for` yields at most one record per allowed iteration, keeps the separators, and never lowers the row counter. |
| CsvParser.RunStops | Lab4/Main.cpp:216 | The range-`for` stops before its bound only at an iterator equal to `end()`, or before a row with too few fields. |
| CsvParser.AdvanceDetached | Lab4/Main.cpp:124-125 | `++` on the end iterator changes nothing. |
| CsvParser.AdvanceAtEof | Lab4/Main.cpp:124-125 | `++` on an attached iterator whose stream has hit the end changes nothing. |
| CsvParser.AdvanceDetaches | Lab4/Main.cpp:124-134 | On a good stream, `++` sets the stream pointer to null exactly when no row is left. |
| CsvParser.AdvanceReadsRow | Lab4/Main.cpp:124-156 | A successful `++` reads the first remaining row. The row counter goes up by exactly one, the column counter is that row's number of field-closing delimiters, the record is decoded from that row, and the other rows stay unread. |
| CsvParser.AdvanceOnRows | Lab4/Main.cpp:124-131 | Over terminated rows, `++` decodes the first row into the current record and stays on the rest. |
| CsvParser.AdvanceOnNoRows | Lab4/Main.cpp:132-134 | After the last terminated row, `++` detaches. |
| CsvParser.StepOnRows | Lab4/Main.cpp:124-131 | One loop iteration yields `operator*` of the current iterator, then continues from the advanced one. |
| CsvParser.RunOnSomeRows | Lab4/Main.cpp:124-141 | The inductive step of `RunOnRows`: one row read, then the loop over the others. |
| CsvParser.RunOnRows | Lab4/Main.cpp:120-141 | From any iterator over terminated rows, the loop yields the current record, then one record per row in order. It stops at an iterator equal to `end()` whose row counter has gone up by the number of rows. |
| CsvParser.IterateTerminated | Lab4/Main.cpp:102-193 | A parser over terminated rows that skips `skip` of them yields the records of the remaining rows, in order. After exactly one iteration per remaining row its iterator equals `end()`, and further iterations add nothing. |
| CsvParser.BeginOnRows | Lab4/Main.cpp:187-189 | `begin()` already holds the first row's record. The loop from it yields every row's record and, after one iteration per row, equals `end()`. |
| CsvParser.RunStalled | Lab4/Main.cpp:124-141 | From an attached iterator at end of stream, every iteration yields the same record, and the loop never reaches `end()`. |
| CsvParser.AdvanceUnterminated | Lab4/Main.cpp:124-131 | Reading a last row that has no delimiter after it sets `eof` but succeeds. The iterator holds that row's record and stays attached. |
| CsvParser.IterateUnterminated | Lab4/Main.cpp:124-141 | Over a single row with no final delimiter, the loop yields that row's record again and again and never reaches `end()`. |
| CsvParser.IterateSkippedPastEnd | Lab4/Main.cpp:105-141 | Skipping more rows than there are delimiters makes `begin()` read nothing. The loop then yields the value-initialised record forever. |
| CsvParser.AllFitIndex | Lab4/Main.cpp:72-84 | The recursive "every row has enough fields" is the same as requiring it of each row by index. |
| CheckedIterator.AdvanceCheckedOnText | Lab4/Main.cpp:124-134 | With the corrected `++`, a row left is always read, also when the read hits the end. |
| CheckedIterator.AdvanceCheckedOnNoText | Lab4/Main.cpp:124-134 | With the corrected `++`, an iterator with no row left detaches, also when the stream has already hit the end. |
| CheckedIterator.StepOnText | Lab4/Main.cpp:124-134 | One iteration of the corrected loop yields the current record, then continues from the advanced iterator on the remaining rows. |
| CheckedIterator.RunCheckedOnText | Lab4/Main.cpp:124-141 | The corrected loop yields one record per remaining row and reaches `end()`, whether or not the text ends in a delimiter. |
| CheckedIterator.IterateChecked | Lab4/Main.cpp:102-193 | For any text and any `skip_lines`, the corrected parser yields the records of exactly the rows left after skipping, in order. After one iteration per row it equals `end()`. |
| CheckedIterator.CheckedUnterminated | Lab4/Main.cpp:124-141 | The single unterminated row that stalls the program's loop gives exactly one record under the corrected `++`, and then `end()`, however many iterations are allowed. |

## Left out

- `main`, file opening, argument checks and exception reporting (Lab4/Main.cpp:202-225) are I/O. `TuplePrinter` and `operator<<` (Lab4/Main.cpp:12-43) only format output.
- The stream is an in-memory string. Reading from a file and blocking are not modelled.
- Only the program's four column types are modelled: `int`, `std::string`, `float` and `char` (`TableTemplate`, Lab4/Main.cpp:8). `TypeHandler<T>` (Lab4/Main.cpp:48-54) works for any `T` with an `operator>>`, but other types read differently: an `unsigned`, for example, accepts `-1` and wraps it.
- Floating-point extraction is not modelled. A `float` field is kept as its source text, `FloatValue(source)`.
- An `int` or `char` read from a field that is empty or all white space leaves the uninitialised local `res` (Lab4/Main.cpp:70, 82) indeterminate, and that value is copied into the tuple. The model writes it as `Unset` and claims nothing about its content.
- Integer extraction uses the "C" locale: no digit grouping, decimal only.
- Schemas with fewer than two columns (`ValidSchema`) are left out. With one column the two partial specialisations of `TuplePlaceholder` (Lab4/Main.cpp:78-92) are ambiguous. With none, `sizeof...(Args) - 1` wraps.
- The widths of `_cur_row`, `_cur_col` and the `int` loop counters (Lab4/Main.cpp:106, 151, 182-183) are not modelled. The counters are unbounded naturals.
- Rows with fewer fields than the schema are left out. The program reads `vector[N]` without a bounds check (Lab4/Main.cpp:72, 84), so such a row is undefined behaviour. The functions that read a row therefore require every row to fit. This follows the code. There is no "row too short" error to model.
- CsvParser.Run: it also stops before an advance that would read a row with too few fields, where the program's behaviour is undefined. It unrolls the loop at most `fuel` times, so a loop that never ends shows up as a bound reached without `end()`.
- CsvParser.End: the separators of `end()` are left uninitialised in the source (Lab4/Main.cpp:118). The model gives it the parser's separators, which no operation reads.
- CsvParser.Begin: the iterator works on its own copy of the stream, so the model covers one range-`for` per parser. In the program every iterator shares the parser's one stream (Lab4/Main.cpp:188, 196), so a second `begin()` would go on from where the first loop stopped instead of reading the rows again.
- `operator*` (Lab4/Main.cpp:120-122) is the `curTuple` field of the iterator, read by `Run` at each iteration.
- FieldDecoder.Decode: its contract states type, range and the verbatim string. The `int` and `char` behaviour is proved in separate lemmas. Every `int` field falls under one of three: all white space (`ExtractIntSpec`), a digit after the white space and optional sign (`ExtractIntSigned`), or anything else after them (`ExtractIntNoLeadingDigit`). The `char` behaviour is proved in `ExtractCharSpec`.
- RecordBuilder.Build: its contract states only the length. The slot-by-slot content is proved in `BuildSlots`.

In these places the code is more lenient than a strict parser, and the model follows the code:
- A field with trailing junk (` -42x`) decodes its numeric prefix rather than the default.
- An out-of-range `int` saturates rather than taking the default.
- The doubled-escape rule also applies outside a quoted span.

## Findings

| source | as written | input that shows it | evidently intended | confidence | as-written member | corrected member |
|---|---|---|---|---|---|---|
| Lab4/Main.cpp:125 | `++` reads only while `!_input->eof()`. A `getline` that reads a last row with no row delimiter after it sets `eof` and succeeds, so every later `++` does nothing and the iterator never equals `end()`. Skipping past the end of the input does the same at `begin()`. | The text `1,a,2.5,x` (no final newline) with four columns: the range-`for` yields that row's record forever. | The loop ends after the last row, whether or not the text ends in a row delimiter: `++` calls `getline` on any attached iterator, and a failed read detaches it. | not executed; high | CsvParser.IterateUnterminated | CheckedIterator.IterateChecked |

=== FILE: checked_iterator.dfy ===
/**
 The input iterator with its end-of-input test corrected.

 `Iterator::operator++` (Lab4/Main.cpp) reads a row only when the stream
 has not hit the end. A `getline` that reads a last row with no row
 delimiter after it sets `eof` and still succeeds, so the next `++` does
 nothing and the iterator never becomes equal to `end()`; skipping more rows
 than the text holds has the same effect at `begin()`
 (`CsvParser.IterateUnterminated`, `CsvParser.IterateSkippedPastEnd`). Here
 `++` always calls `getline` on an attached iterator and detaches on a
 failed read, and the loop then yields exactly one record per row the
 skipping left, however the text ends.
 */
module CheckedIterator {
  import opened TextSearch
  import opened RecordBuilder
  import opened InputStream
  import opened CsvParser

  /** `operator++` with the `eof()` test removed: the failed `getline` on a
      stream that hit the end is what detaches the iterator. */
  function AdvanceChecked(schema: Schema, it: Iterator): Iterator
    requires ValidSchema(schema)
    requires NextRowFits(schema, it)
  {
    match it.input
    case Detached => it
    case Attached(s) => Consume(schema, it, GetLine(s, it.cfg.rowDelim))
  }

  /** `begin()` with the corrected `++`. */
  function BeginChecked(schema: Schema, p: Parser): Iterator
    requires ValidSchema(schema)
    requires NextRowFits(schema, Iterator(Attached(p.input), p.cfg, 0, 0, DefaultRecord(schema)))
  {
    AdvanceChecked(schema, Iterator(Attached(p.input), p.cfg, 0, 0, DefaultRecord(schema)))
  }

  /** The range-`for` loop with the corrected `++`, unrolled `fuel` times;
      like `CsvParser.Run` it stops before a row with too few fields. */
  function RunChecked(schema: Schema, it: Iterator, fuel: nat): Outcome
    requires ValidSchema(schema)
    decreases fuel
  {
    if fuel == 0 || it.input.Detached? || !NextRowFits(schema, it) then Outcome([], it)
    else
      var rest := RunChecked(schema, AdvanceChecked(schema, it), fuel - 1);
      Outcome([it.curTuple] + rest.records, rest.last)
  }

  /** `it` is attached to a settled stream whose remaining rows are `rows`,
      each with enough fields; the text may end with or without a row
      delimiter. */
  predicate OnText(schema: Schema, it: Iterator, rows: seq<string>)
  {
    && ValidSchema(schema)
    && it.input.Attached? && Settled(it.input.stream)
    && Rows(it.input.stream.unread, it.cfg.rowDelim) == rows
    && AllFit(schema, it.cfg, rows)
  }

  /** One corrected advance with a row left: the row is read and decoded,
      and the iterator stays on the other rows, attached even when the read
      hit the end. */
  lemma AdvanceCheckedOnText(schema: Schema, it: Iterator, rows: seq<string>)
    requires OnText(schema, it, rows) && rows != []
    ensures NextRowFits(schema, it)
    ensures var next := AdvanceChecked(schema, it);
      && OnText(schema, next, rows[1..])
      && next.cfg == it.cfg && next.curRow == it.curRow + 1
      && next.curTuple == RowRecord(schema, it.cfg, rows[0])
  {
    var s := it.input.stream;
    assert s.unread != [];
    GetLineRows(s, it.cfg.rowDelim);
    GetLineSpec(s, it.cfg.rowDelim);
  }

  /** With no row left, the corrected advance detaches the iterator, also
      when the stream already hit the end. */
  lemma AdvanceCheckedOnNoText(schema: Schema, it: Iterator)
    requires OnText(schema, it, [])
    ensures NextRowFits(schema, it)
    ensures AdvanceChecked(schema, it) == it.(input := Detached)
  {
    var s := it.input.stream;
    if Good(s) {
      GetLineRows(s, it.cfg.rowDelim);
    }
  }

  /** One corrected iteration, in terms of the iterator `next` it moves to. */
  lemma StepOnText(schema: Schema, it: Iterator, rows: seq<string>, fuel: nat) returns (next: Iterator)
    requires OnText(schema, it, rows) && rows != [] && fuel > 0
    ensures OnText(schema, next, rows[1..])
    ensures next.cfg == it.cfg && next.curRow == it.curRow + 1
    ensures Records(schema, it.cfg, rows) == [next.curTuple] + Records(schema, it.cfg, rows[1..])
    ensures RunChecked(schema, it, fuel)
         == Outcome([it.curTuple] + RunChecked(schema, next, fuel - 1).records, RunChecked(schema, next, fuel - 1).last)
  {
    AdvanceCheckedOnText(schema, it, rows);
    next := AdvanceChecked(schema, it);
  }

  /** From an iterator on any remaining rows, the corrected loop yields the
      current record, then one record per row in order, and stops at an
      iterator equal to `end()`. */
  lemma {:induction false} RunCheckedOnText(schema: Schema, it: Iterator, rows: seq<string>, fuel: nat)
    requires OnText(schema, it, rows) && fuel > |rows|
    ensures YieldsRows(schema, it, rows, RunChecked(schema, it, fuel))
    decreases rows, 1
  {
    if rows == [] {
      AdvanceCheckedOnNoText(schema, it);
      var next := AdvanceChecked(schema, it);
      assert RunChecked(schema, it, fuel)
          == Outcome([it.curTuple] + RunChecked(schema, next, fuel - 1).records, RunChecked(schema, next, fuel - 1).last);
    } else {
      RunCheckedOnSomeText(schema, it, rows, fuel);
    }
  }

  /** The inductive step of `RunCheckedOnText`. */
  lemma {:induction false} RunCheckedOnSomeText(schema: Schema, it: Iterator, rows: seq<string>, fuel: nat)
    requires OnText(schema, it, rows) && rows != [] && fuel > |rows|
    ensures YieldsRows(schema, it, rows, RunChecked(schema, it, fuel))
    decreases rows, 0
  {
    var next := StepOnText(schema, it, rows, fuel);
    RunCheckedOnText(schema, next, rows[1..], fuel - 1);
  }

  /** Any text, any number of skipped rows: the corrected loop yields one
      record per row the skipping left, in order, and then its iterator
      equals `end()`: the loop body runs exactly once per row. */
  lemma {:induction false} IterateChecked(schema: Schema, cfg: Config, text: string, skip: nat, fuel: nat)
    requires ValidSchema(schema)
    requires AllFit(schema, cfg, Drop(Rows(text, cfg.rowDelim), skip))
    requires fuel >= |Drop(Rows(text, cfg.rowDelim), skip)|
    ensures var p := NewParser(Open(text), skip, cfg);
      && NextRowFits(schema, Iterator(Attached(p.input), cfg, 0, 0, DefaultRecord(schema)))
      && var o := RunChecked(schema, BeginChecked(schema, p), fuel);
      && o.records == Records(schema, cfg, Drop(Rows(text, cfg.rowDelim), skip))
      && !NotEqual(o.last, End(schema, p))
  {
    var rows := Drop(Rows(text, cfg.rowDelim), skip);
    var p := NewParser(Open(text), skip, cfg);
    NewParserSkips(Open(text), skip, cfg);
    SkipRowsSettled(Open(text), cfg.rowDelim, skip);
    var start := Iterator(Attached(p.input), cfg, 0, 0, DefaultRecord(schema));
    if rows == [] {
      AdvanceCheckedOnNoText(schema, start);
    } else {
      AdvanceCheckedOnText(schema, start, rows);
      RunCheckedOnText(schema, BeginChecked(schema, p), rows[1..], fuel);
    }
  }

  /** The text that makes the program's loop run forever: one row with no
      final row delimiter. The corrected loop yields its record once and
      stops, however many more iterations it is allowed. */
  lemma {:induction false} CheckedUnterminated(schema: Schema, cfg: Config, line: string, fuel: nat)
    requires ValidSchema(schema)
    requires line != [] && cfg.rowDelim !in line
    requires RowFits(schema, cfg, line)
    requires fuel >= 1
    ensures var p := NewParser(Open(line), 0, cfg);
      && NextRowFits(schema, Iterator(Attached(p.input), cfg, 0, 0, DefaultRecord(schema)))
      && var o := RunChecked(schema, BeginChecked(schema, p), fuel);
      && o.records == [RowRecord(schema, cfg, line)]
      && !NotEqual(o.last, End(schema, p))
  {
    assert IndexOf(line, cfg.rowDelim) == |line|;
    assert Rows(line, cfg.rowDelim) == [line];
    assert Drop([line], 0) == [line];
    IterateChecked(schema, cfg, line, 0, fuel);
  }
}

=== FILE: csv_parser.dfy ===
/**
 The parser object and its input iterator (`CsvParser<Args...>`,
 Lab4/Main.cpp).

 Constructing a parser skips `skip_lines` rows of the stream. `begin()` builds
 an iterator attached to the stream and advances it once; `end()` is an
 iterator with no stream. Advancing an attached iterator whose stream has not
 hit the end reads one row with `getline` and replaces the current record with
 the one decoded from it; a failed read detaches the iterator, which then
 compares equal to `end()`. Iterators are compared by their stream pointer
 only, so only "attached or not" matters.
 */
module CsvParser {
  import opened TextSearch
  import opened RowSplitter
  import opened FieldDecoder
  import opened RecordBuilder
  import opened InputStream

  /** The separators a parser is constructed with. */
  datatype Config = Config(rowDelim: char, colDelim: char, escape: char)

  /** The constructor's defaults: rows end at a newline, fields at a comma,
      and `"` escapes. */
  const DefaultConfig: Config := Config('\n', ',', '"')

  /** With the constructor's default separators, a comma inside a quoted
      span does not end the field. */
  lemma DefaultConfigExample()
    ensures Split("a,\"b,c\",d", DefaultConfig.colDelim, DefaultConfig.escape) == ["a", "b,c", "d"]
  {
    QuotedDelimiterExample();
  }

  /** A constructed parser: its stream (already past the skipped rows) and
      separators. */
  datatype Parser = Parser(input: Stream, cfg: Config)

  /** `CsvParser(input, skip_lines, row_delim, col_delim, escape_symbol)`:
      `getline` into a dummy string `skip_lines` times. */
  function NewParser(input: Stream, skip: nat, cfg: Config): (p: Parser)
    ensures p.cfg == cfg
    ensures |p.input.unread| <= |input.unread|
    ensures input.eof ==> p.input.eof
  {
    Parser(SkipRows(input, cfg.rowDelim, skip), cfg)
  }

  /** The stream pointer of an iterator: `nullptr`, or the parser's stream. */
  datatype Handle = Detached | Attached(stream: Stream)

  /** `CsvParser::Iterator`: the stream pointer, the separators, the row and
      column counters and the current record. */
  datatype Iterator = Iterator(input: Handle, cfg: Config, curRow: nat, curCol: nat, curTuple: Record)

  /** The record of the row `line`. */
  function RowRecord(schema: Schema, cfg: Config, line: string): Record
    requires ValidSchema(schema)
    requires RowFits(schema, cfg, line)
  {
    Build(schema, Split(line, cfg.colDelim, cfg.escape))
  }

  /** A row has at least as many fields as the record has slots. */
  predicate RowFits(schema: Schema, cfg: Config, line: string)
  {
    |Split(line, cfg.colDelim, cfg.escape)| >= |schema|
  }

  /** The row the next `++` would read, if any, has enough fields: slot N is
      read from field N without a bounds check. */
  predicate NextRowFits(schema: Schema, it: Iterator)
  {
    (it.input.Attached? && GetLine(it.input.stream, it.cfg.rowDelim).ok)
      ==> RowFits(schema, it.cfg, GetLine(it.input.stream, it.cfg.rowDelim).line)
  }

  /** The body of `operator++` after its test: a successful `getline`
      counts the row, re-counts the columns in `parseLine` and replaces the
      record; a failed one sets the stream pointer to `nullptr`. */
  function Consume(schema: Schema, it: Iterator, r: LineRead): (next: Iterator)
    requires ValidSchema(schema)
    requires r.ok ==> RowFits(schema, it.cfg, r.line)
    ensures next.cfg == it.cfg
    ensures next.input.Attached? <==> r.ok
    ensures r.ok ==> next.curRow == it.curRow + 1 && |next.curTuple| == |schema| && next.curCol + 1 >= |schema|
    ensures !r.ok ==> next.curRow == it.curRow && next.curTuple == it.curTuple
  {
    if r.ok then
      var fields := Split(r.line, it.cfg.colDelim, it.cfg.escape);
      Iterator(Attached(r.rest), it.cfg, it.curRow + 1, |fields| - 1, Build(schema, fields))
    else
      it.(input := Detached)
  }

  /** `Iterator::operator++`: nothing happens unless the iterator is
      attached to a stream that has not hit the end. */
  function Advance(schema: Schema, it: Iterator): (next: Iterator)
    requires ValidSchema(schema)
    requires NextRowFits(schema, it)
    ensures next.cfg == it.cfg
    ensures next.input.Attached? ==> it.input.Attached?
    ensures next.curRow == it.curRow || (next.curRow == it.curRow + 1 && next.input.Attached? && |next.curTuple| == |schema|)
    ensures next.curRow == it.curRow ==> next.curTuple == it.curTuple
  {
    match it.input
    case Detached => it
    case Attached(s) =>
      if s.eof then it else Consume(schema, it, GetLine(s, it.cfg.rowDelim))
  }

  /** `begin()`: an iterator on the parser's stream, with a value-initialised
      record and counters at zero, advanced once. */
  function Begin(schema: Schema, p: Parser): (it: Iterator)
    requires ValidSchema(schema)
    requires NextRowFits(schema, Iterator(Attached(p.input), p.cfg, 0, 0, DefaultRecord(schema)))
    ensures it.cfg == p.cfg && |it.curTuple| == |schema|
    ensures it.curRow == 1 || (it.curRow == 0 && it.curTuple == DefaultRecord(schema))
  {
    Advance(schema, Iterator(Attached(p.input), p.cfg, 0, 0, DefaultRecord(schema)))
  }

  /** `end()`: no stream. Its separators are never read (the source leaves
      them uninitialised); the parser's are used here. */
  function End(schema: Schema, p: Parser): (it: Iterator)
    ensures it.input.Detached?
    ensures NextRowFits(schema, it)
    ensures ValidSchema(schema) ==> Advance(schema, it) == it
  {
    Iterator(Detached, p.cfg, 0, 0, DefaultRecord(schema))
  }

  /** `Iterator::operator!=`: the stream pointers differ. Every attached
      iterator of one parser points to that parser's stream. */
  predicate NotEqual(a: Iterator, b: Iterator)
    ensures a.input.Detached? && b.input.Detached? ==> !NotEqual(a, b)
    ensures a.input.Detached? ==> (NotEqual(a, b) <==> b.input.Attached?)
    ensures b.input.Detached? ==> (NotEqual(a, b) <==> a.input.Attached?)
    ensures a.input.Attached? && b.input.Attached? ==> !NotEqual(a, b)
  {
    a.input.Attached? != b.input.Attached?
  }

  /** The range-`for` test `it != end()` holds exactly while the iterator is
      attached to the stream. */
  lemma NotEqualEnd(schema: Schema, p: Parser, it: Iterator)
    ensures NotEqual(it, End(schema, p)) <==> it.input.Attached?
    ensures NotEqual(End(schema, p), it) <==> it.input.Attached?
  {
  }

  /** What a range-`for` over the parser has produced after at most `fuel`
      iterations, and the iterator it stopped at. */
  datatype Outcome = Outcome(records: seq<Record>, last: Iterator)

  /** `for (it = begin(); it != end(); ++it) use(*it);`, unrolled `fuel`
      times. The loop also stops before an advance that would read a row
      with too few fields, where the program's behaviour is undefined. */
  function Run(schema: Schema, it: Iterator, fuel: nat): (o: Outcome)
    requires ValidSchema(schema)
    ensures |o.records| <= fuel
    ensures o.last.cfg == it.cfg && o.last.curRow >= it.curRow
    decreases fuel
  {
    if fuel == 0 || it.input.Detached? || !NextRowFits(schema, it) then Outcome([], it)
    else
      var rest := Run(schema, Advance(schema, it), fuel - 1);
      Outcome([it.curTuple] + rest.records, rest.last)
  }

  /** The loop stops before its bound only at an iterator equal to `end()`,
      or before a row with too few fields. */
  lemma {:induction false} RunStops(schema: Schema, it: Iterator, fuel: nat)
    requires ValidSchema(schema)
    ensures var o := Run(schema, it, fuel);
      |o.records| < fuel ==> o.last.input.Detached? || !NextRowFits(schema, o.last)
    decreases fuel
  {
    if fuel > 0 && it.input.Attached? && NextRowFits(schema, it) {
      RunStops(schema, Advance(schema, it), fuel - 1);
    }
  }

  // ---------------------------------------------------------------------
  // One advance

  /** Advancing the end iterator changes nothing. */
  lemma AdvanceDetached(schema: Schema, it: Iterator)
    requires ValidSchema(schema)
    requires it.input.Detached?
    ensures NextRowFits(schema, it) && Advance(schema, it) == it
  {
  }

  /** An attached iterator whose stream hit the end is stuck: advancing it
      changes nothing, so it never becomes equal to `end()`. */
  lemma AdvanceAtEof(schema: Schema, it: Iterator)
    requires ValidSchema(schema)
    requires it.input.Attached? && it.input.stream.eof
    ensures NextRowFits(schema, it) && Advance(schema, it) == it
  {
  }

  /** On a good stream, an advance detaches the iterator exactly when no
      row is left. */
  lemma AdvanceDetaches(schema: Schema, it: Iterator)
    requires ValidSchema(schema) && NextRowFits(schema, it)
    requires it.input.Attached? && Good(it.input.stream)
    ensures Advance(schema, it).input.Detached? <==> Rows(it.input.stream.unread, it.cfg.rowDelim) == []
  {
    GetLineRows(it.input.stream, it.cfg.rowDelim);
  }

  /** On a good stream with a row left, an advance reads exactly the first
      row: the row counter goes up by one, the column counter is the number
      of unescaped column delimiters in it, the record is decoded from it,
      and the other rows stay unread. */
  lemma AdvanceReadsRow(schema: Schema, it: Iterator)
    requires ValidSchema(schema) && NextRowFits(schema, it)
    requires it.input.Attached? && Good(it.input.stream)
    requires Rows(it.input.stream.unread, it.cfg.rowDelim) != []
    ensures var rows := Rows(it.input.stream.unread, it.cfg.rowDelim);
      var next := Advance(schema, it);
      && RowFits(schema, it.cfg, rows[0])
      && next.input.Attached?
      && Rows(next.input.stream.unread, it.cfg.rowDelim) == rows[1..]
      && next.curRow == it.curRow + 1
      && next.curCol == UnescapedDelimiters(rows[0], it.cfg.colDelim, it.cfg.escape, false)
      && next.curTuple == RowRecord(schema, it.cfg, rows[0])
  {
    var s := it.input.stream;
    GetLineRows(s, it.cfg.rowDelim);
    GetLineSpec(s, it.cfg.rowDelim);
  }

  // ---------------------------------------------------------------------
  // The whole loop

  /** Every row has enough fields. */
  predicate AllFit(schema: Schema, cfg: Config, rows: seq<string>)
  {
    rows != [] ==> RowFits(schema, cfg, rows[0]) && AllFit(schema, cfg, rows[1..])
  }

  lemma {:induction false} AllFitIndex(schema: Schema, cfg: Config, rows: seq<string>)
    ensures AllFit(schema, cfg, rows) <==> forall k :: 0 <= k < |rows| ==> RowFits(schema, cfg, rows[k])
  {
    if rows != [] {
      AllFitIndex(schema, cfg, rows[1..]);
      assert forall k :: 1 <= k < |rows| ==> rows[k] == rows[1..][k - 1];
    }
  }

  /** The records of `rows`, in order. */
  function Records(schema: Schema, cfg: Config, rows: seq<string>): (records: seq<Record>)
    requires ValidSchema(schema)
    requires AllFit(schema, cfg, rows)
    ensures |records| == |rows|
  {
    if rows == [] then [] else [RowRecord(schema, cfg, rows[0])] + Records(schema, cfg, rows[1..])
  }

  /** `it` is attached to a good stream whose unread text is exactly the
      terminated `rows`, each with enough fields. */
  predicate OnRows(schema: Schema, it: Iterator, rows: seq<string>)
  {
    && ValidSchema(schema)
    && it.input.Attached? && Good(it.input.stream)
    && NoDelimiter(rows, it.cfg.rowDelim)
    && it.input.stream.unread == Terminated(rows, it.cfg.rowDelim)
    && AllFit(schema, it.cfg, rows)
  }

  /** One step of the loop over terminated rows: the first row is read and
      decoded, the row counter goes up, and the iterator stays on the
      rest. */
  lemma AdvanceOnRows(schema: Schema, it: Iterator, rows: seq<string>)
    requires OnRows(schema, it, rows) && rows != []
    ensures NextRowFits(schema, it)
    ensures var next := Advance(schema, it);
      && OnRows(schema, next, rows[1..])
      && next.cfg == it.cfg && next.curRow == it.curRow + 1
      && next.curTuple == RowRecord(schema, it.cfg, rows[0])
  {
    var delim := it.cfg.rowDelim;
    var tail := Terminated(rows[1..], delim);
    assert it.input.stream.unread == rows[0] + [delim] + tail;
    assert delim !in rows[0];
    GetLineTerminated(it.input.stream, delim, rows[0], tail);
    assert forall k :: 0 <= k < |rows| - 1 ==> rows[1..][k] == rows[k + 1];
  }

  /** The step after the last terminated row: `getline` finds nothing, and
      the iterator detaches. */
  lemma AdvanceOnNoRows(schema: Schema, it: Iterator)
    requires OnRows(schema, it, [])
    ensures NextRowFits(schema, it)
    ensures Advance(schema, it) == it.(input := Detached)
  {
    GetLineSpec(it.input.stream, it.cfg.rowDelim);
  }

  /** `o` is what the loop from `it` over the terminated `rows` should
      produce: the current record, then one record per row in order, and a
      stop at an iterator equal to `end()` whose row counter has gone up by
      the number of rows. */
  predicate YieldsRows(schema: Schema, it: Iterator, rows: seq<string>, o: Outcome)
  {
    && ValidSchema(schema) && AllFit(schema, it.cfg, rows)
    && o.records == [it.curTuple] + Records(schema, it.cfg, rows)
    && o.last.input.Detached?
    && o.last.curRow == it.curRow + |rows|
  }

  /** From an iterator on terminated rows, the loop yields the current
      record, then one record per row in order, and stops at an iterator
      equal to `end()` whose row counter has gone up by the number of
      rows. */
  lemma {:induction false} RunOnRows(schema: Schema, it: Iterator, rows: seq<string>, fuel: nat)
    requires OnRows(schema, it, rows) && fuel > |rows|
    ensures YieldsRows(schema, it, rows, Run(schema, it, fuel))
    decreases rows, 1
  {
    if rows == [] {
      RunOnNoRows(schema, it, fuel);
    } else {
      RunOnSomeRows(schema, it, rows, fuel);
    }
  }

  /** The inductive step of `RunOnRows`: the first row, then the others. */
  lemma {:induction false} RunOnSomeRows(schema: Schema, it: Iterator, rows: seq<string>, fuel: nat)
    requires OnRows(schema, it, rows) && rows != [] && fuel > |rows|
    ensures YieldsRows(schema, it, rows, Run(schema, it, fuel))
    decreases rows, 0
  {
    var next := StepOnRows(schema, it, rows, fuel);
    RunOnRows(schema, next, rows[1..], fuel - 1);
    var o, rest := Run(schema, it, fuel), Run(schema, next, fuel - 1);
    assert o.records == [it.curTuple] + rest.records && o.last == rest.last;
    assert rest.records == [next.curTuple] + Records(schema, it.cfg, rows[1..]);
    assert rest.last.input.Detached? && rest.last.curRow == next.curRow + |rows[1..]|;
  }

  /** With no row left the loop yields the current record and stops. */
  lemma RunOnNoRows(schema: Schema, it: Iterator, fuel: nat)
    requires OnRows(schema, it, []) && fuel > 0
    ensures YieldsRows(schema, it, [], Run(schema, it, fuel))
  {
    AdvanceOnNoRows(schema, it);
    var next := Advance(schema, it);
    assert Run(schema, it, fuel) == Outcome([it.curTuple] + Run(schema, next, fuel - 1).records, Run(schema, next, fuel - 1).last);
  }

  /** One iteration over terminated rows, in terms of the iterator `next`
      it moves to. */
  lemma StepOnRows(schema: Schema, it: Iterator, rows: seq<string>, fuel: nat) returns (next: Iterator)
    requires OnRows(schema, it, rows) && rows != [] && fuel > 0
    ensures OnRows(schema, next, rows[1..])
    ensures next.cfg == it.cfg && next.curRow == it.curRow + 1
    ensures Records(schema, it.cfg, rows) == [next.curTuple] + Records(schema, it.cfg, rows[1..])
    ensures Run(schema, it, fuel)
         == Outcome([it.curTuple] + Run(schema, next, fuel - 1).records, Run(schema, next, fuel - 1).last)
  {
    AdvanceOnRows(schema, it, rows);
    next := Advance(schema, it);
  }

  /** A parser over text made of terminated rows, skipping `skip` of them,
      yields one record per remaining row, in order, and then its iterator
      equals `end()`: the loop body runs exactly once per remaining row. */
  lemma {:induction false} IterateTerminated(schema: Schema, cfg: Config, rows: seq<string>, skip: nat, fuel: nat)
    requires ValidSchema(schema)
    requires NoDelimiter(rows, cfg.rowDelim)
    requires skip <= |rows|
    requires AllFit(schema, cfg, rows[skip..])
    requires fuel >= |rows| - skip
    ensures var p := NewParser(Open(Terminated(rows, cfg.rowDelim)), skip, cfg);
      && NextRowFits(schema, Iterator(Attached(p.input), cfg, 0, 0, DefaultRecord(schema)))
      && var o := Run(schema, Begin(schema, p), fuel);
      && o.records == Records(schema, cfg, rows[skip..])
      && !NotEqual(o.last, End(schema, p))
  {
    var p := NewParser(Open(Terminated(rows, cfg.rowDelim)), skip, cfg);
    SkipOnRows(schema, cfg, rows, skip);
    BeginOnRows(schema, p, rows[skip..], fuel);
  }

  /** After skipping `skip` terminated rows the parser's stream is good and
      holds the others. */
  lemma {:induction false} SkipOnRows(schema: Schema, cfg: Config, rows: seq<string>, skip: nat)
    requires ValidSchema(schema)
    requires NoDelimiter(rows, cfg.rowDelim)
    requires skip <= |rows|
    requires AllFit(schema, cfg, rows[skip..])
    ensures var p := NewParser(Open(Terminated(rows, cfg.rowDelim)), skip, cfg);
      OnRows(schema, Iterator(Attached(p.input), cfg, 0, 0, DefaultRecord(schema)), rows[skip..])
  {
    var text := Terminated(rows, cfg.rowDelim);
    SkipTerminated(Open(text), cfg.rowDelim, rows, skip);
    var rest := rows[skip..];
    assert NoDelimiter(rest, cfg.rowDelim) by {
      assert forall k :: 0 <= k < |rest| ==> rest[k] == rows[skip + k];
    }
  }

  /** The loop from `begin()` on a parser whose stream holds terminated
      rows: the records of all of them, then a detached iterator. */
  lemma {:induction false} BeginOnRows(schema: Schema, p: Parser, rows: seq<string>, fuel: nat)
    requires ValidSchema(schema)
    requires OnRows(schema, Iterator(Attached(p.input), p.cfg, 0, 0, DefaultRecord(schema)), rows)
    requires fuel >= |rows|
    ensures NextRowFits(schema, Iterator(Attached(p.input), p.cfg, 0, 0, DefaultRecord(schema)))
    ensures var o := Run(schema, Begin(schema, p), fuel);
      o.records == Records(schema, p.cfg, rows) && o.last.input.Detached?
  {
    var start := Iterator(Attached(p.input), p.cfg, 0, 0, DefaultRecord(schema));
    if rows == [] {
      AdvanceOnNoRows(schema, start);
    } else {
      AdvanceOnRows(schema, start, rows);
      RunOnRows(schema, Begin(schema, p), rows[1..], fuel);
    }
  }

  // ---------------------------------------------------------------------
  // Construction, and loops that never end

  /** Construction discards exactly the first `skip` rows of a good stream
      (all of them when there are fewer), and leaves the stream at its end
      exactly when fewer than `skip` row delimiters were left. */
  lemma NewParserSkips(input: Stream, skip: nat, cfg: Config)
    requires Good(input)
    ensures var p := NewParser(input, skip, cfg);
      && p.cfg == cfg
      && Rows(p.input.unread, cfg.rowDelim) == Drop(Rows(input.unread, cfg.rowDelim), skip)
      && (p.input.eof <==> skip > Occurrences(input.unread, cfg.rowDelim))
      && (!p.input.eof ==> Good(p.input))
  {
    SkipRowsDiscards(input, cfg.rowDelim, skip);
    SkipRowsEof(input, cfg.rowDelim, skip);
  }

  /** `n` copies of `r`. */
  function Repeat(r: Record, n: nat): (rs: seq<Record>)
    ensures |rs| == n && forall k :: 0 <= k < n ==> rs[k] == r
  {
    if n == 0 then [] else [r] + Repeat(r, n - 1)
  }

  /** A loop on an attached iterator whose stream hit the end never stops:
      every iteration yields the same record, and the iterator never
      becomes equal to `end()`. */
  lemma {:induction false} RunStalled(schema: Schema, it: Iterator, fuel: nat)
    requires ValidSchema(schema)
    requires it.input.Attached? && it.input.stream.eof
    ensures Run(schema, it, fuel) == Outcome(Repeat(it.curTuple, fuel), it)
    decreases fuel
  {
    if fuel > 0 {
      AdvanceAtEof(schema, it);
      RunStalled(schema, it, fuel - 1);
    }
  }

  /** Reading a last row that has no row delimiter after it sets `eof`: the
      iterator holds that row's record and stays attached. */
  lemma AdvanceUnterminated(schema: Schema, it: Iterator, line: string)
    requires ValidSchema(schema)
    requires it.input.Attached? && Good(it.input.stream)
    requires it.input.stream.unread == line && line != [] && it.cfg.rowDelim !in line
    requires RowFits(schema, it.cfg, line)
    ensures NextRowFits(schema, it)
    ensures var next := Advance(schema, it);
      && next.input.Attached? && next.input.stream.eof
      && next.curTuple == RowRecord(schema, it.cfg, line)
  {
    assert IndexOf(line, it.cfg.rowDelim) == |line|;
  }

  /** Over text whose only row lacks a final row delimiter, the loop never
      stops: it yields that row's record again and again. */
  lemma {:induction false} IterateUnterminated(schema: Schema, cfg: Config, line: string, fuel: nat)
    requires ValidSchema(schema)
    requires line != [] && cfg.rowDelim !in line
    requires RowFits(schema, cfg, line)
    ensures var p := NewParser(Open(line), 0, cfg);
      && NextRowFits(schema, Iterator(Attached(p.input), cfg, 0, 0, DefaultRecord(schema)))
      && var o := Run(schema, Begin(schema, p), fuel);
      && o.records == Repeat(RowRecord(schema, cfg, line), fuel)
      && NotEqual(o.last, End(schema, p))
  {
    var p := NewParser(Open(line), 0, cfg);
    var start := Iterator(Attached(p.input), cfg, 0, 0, DefaultRecord(schema));
    assert p.input == Open(line);
    AdvanceUnterminated(schema, start, line);
    RunStalled(schema, Begin(schema, p), fuel);
  }

  /** Skipping more rows than the text has row delimiters leaves the stream
      at its end, so `begin()` reads nothing and the loop never stops: it
      yields the value-initialised record again and again. */
  lemma {:induction false} IterateSkippedPastEnd(schema: Schema, cfg: Config, text: string, skip: nat, fuel: nat)
    requires ValidSchema(schema)
    requires skip > Occurrences(text, cfg.rowDelim)
    ensures var p := NewParser(Open(text), skip, cfg);
      && NextRowFits(schema, Iterator(Attached(p.input), cfg, 0, 0, DefaultRecord(schema)))
      && var o := Run(schema, Begin(schema, p), fuel);
      && o.records == Repeat(DefaultRecord(schema), fuel)
      && NotEqual(o.last, End(schema, p))
  {
    var p := NewParser(Open(text), skip, cfg);
    var start := Iterator(Attached(p.input), cfg, 0, 0, DefaultRecord(schema));
    SkipRowsEof(Open(text), cfg.rowDelim, skip);
    AdvanceAtEof(schema, start);
    RunStalled(schema, start, fuel);
  }
}

=== FILE: field_decoder.dfy ===
/**
 Decoding one raw field into one typed slot (`TypeHandler`, Lab4/Main.cpp).

 The schema used by the program is `int, std::string, float, char`. A string
 slot takes the field verbatim; every other slot is filled by extracting a
 value from an `istringstream` over the field:
 - both `int` and `char` extraction first skip leading white space; when
   nothing is left, the stream's sentry fails, nothing is stored, and the
   slot keeps the indeterminate value of its uninitialised local;
 - `int`: otherwise an optional sign, then the longest run of decimal
   digits; no digit stores 0, and a value outside the 32-bit range stores
   the nearest bound (C++11 rules for a failed numeric extraction);
 - `char`: otherwise the first character that is not white space;
 - `float`: floating-point parsing is not interpreted here; the slot records
   the text the value was extracted from.
 */
module FieldDecoder {

  datatype TypeTag = IntType | StringType | FloatType | CharType

  datatype Value =
    | IntValue(n: int)
    | StringValue(s: string)
      /** The float `istringstream >> float` yields from `source`. */
    | FloatValue(source: string)
    | CharValue(c: char)
      /** The indeterminate content of an uninitialised `int` or `char`,
          left when extraction finds nothing but white space. */
    | Unset

  predicate HasType(v: Value, t: TypeTag)
  {
    match t
    case IntType => v.IntValue? || v.Unset?
    case StringType => v.StringValue?
    case FloatType => v.FloatValue?
    case CharType => v.CharValue? || v.Unset?
  }

  const IntMin: int := -0x8000_0000
  const IntMax: int := 0x7FFF_FFFF

  /** White space of the classic "C" locale: space and `\t` .. `\r`. */
  predicate IsSpace(c: char)
  {
    c == ' ' || '\t' <= c <= '\r'
  }

  predicate IsDigit(c: char)
  {
    '0' <= c <= '9'
  }

  function DigitValue(c: char): (n: nat)
    requires IsDigit(c)
    ensures n < 10
  {
    (c - '0') as nat
  }

  function DigitChar(n: nat): (c: char)
    requires n < 10
    ensures IsDigit(c) && DigitValue(c) == n
  {
    '0' + n as char
  }

  /** `s` with its leading white space removed. */
  function SkipSpace(s: string): (r: string)
    ensures |r| <= |s|
    ensures r == [] || !IsSpace(r[0])
  {
    if s != [] && IsSpace(s[0]) then SkipSpace(s[1..]) else s
  }

  /** What is skipped is a prefix of white space; what is left is the rest
      of the text. */
  lemma {:induction false} SkipSpaceSuffix(s: string)
    ensures var r := SkipSpace(s);
      && r == s[|s| - |r|..]
      && forall j :: 0 <= j < |s| - |r| ==> IsSpace(s[j])
    decreases |s|
  {
    if s != [] && IsSpace(s[0]) {
      SkipSpaceSuffix(s[1..]);
      var r := SkipSpace(s);
      assert forall j :: 1 <= j < |s| - |r| ==> s[j] == s[1..][j - 1];
    }
  }

  /** Length of the run of decimal digits that starts `s`. */
  function DigitRun(s: string): (k: nat)
    ensures k <= |s|
  {
    if s != [] && IsDigit(s[0]) then 1 + DigitRun(s[1..]) else 0
  }

  /** The run is made of digits and stops at the first non-digit. */
  lemma {:induction false} DigitRunSpec(s: string)
    ensures var k := DigitRun(s);
      && (forall j :: 0 <= j < k ==> IsDigit(s[j]))
      && (k < |s| ==> !IsDigit(s[k]))
    decreases |s|
  {
    if s != [] && IsDigit(s[0]) {
      DigitRunSpec(s[1..]);
      assert forall j :: 1 <= j < |s| ==> s[j] == s[1..][j - 1];
    }
  }

  predicate AllDigits(ds: string)
  {
    forall j :: 0 <= j < |ds| ==> IsDigit(ds[j])
  }

  /** The number a digit string denotes, most significant digit first. */
  function DigitsValue(ds: string): nat
    requires AllDigits(ds)
  {
    if ds == [] then 0 else DigitsValue(ds[..|ds| - 1]) * 10 + DigitValue(ds[|ds| - 1])
  }

  /** `n` forced into the range of a 32-bit `int`. */
  function Clamp(n: int): (r: int)
    ensures IntMin <= r <= IntMax
    ensures IntMin <= n <= IntMax ==> r == n
    ensures n > IntMax ==> r == IntMax
    ensures n < IntMin ==> r == IntMin
  {
    if n < IntMin then IntMin else if n > IntMax then IntMax else n
  }

  /** `istringstream >> int` on `text`: nothing is stored when only white
      space is left for the sentry. */
  function ExtractInt(text: string): (v: Value)
    ensures v.IntValue? || v.Unset?
    ensures v.IntValue? ==> IntMin <= v.n <= IntMax
  {
    var t := SkipSpace(text);
    if t == [] then Unset else IntValue(ExtractSigned(t))
  }

  /** Integer extraction leaves the slot unset exactly when the field is all
      white space. */
  lemma ExtractIntSpec(text: string)
    ensures ExtractInt(text).Unset? <==> forall j :: 0 <= j < |text| ==> IsSpace(text[j])
  {
    var t := SkipSpace(text);
    SkipSpaceSuffix(text);
    if t != [] {
      assert !IsSpace(text[|text| - |t|]);
    }
  }

  /** Integer extraction once white space is skipped: an optional sign, then
      the digits; no digit at all is a failed extraction, which stores 0. */
  function ExtractSigned(t: string): (n: int)
    ensures IntMin <= n <= IntMax
  {
    var negative := t != [] && t[0] == '-';
    var body := if t != [] && (t[0] == '-' || t[0] == '+') then t[1..] else t;
    var k := DigitRun(body);
    if k == 0 then 0
    else
      DigitRunSpec(body);
      var magnitude: int := DigitsValue(body[..k]);
      var signed: int := if negative then -magnitude else magnitude;
      Clamp(signed)
  }

  /** `istringstream >> char` on `text`. */
  function ExtractChar(text: string): (v: Value)
    ensures v.CharValue? || v.Unset?
  {
    var t := SkipSpace(text);
    if t == [] then Unset else CharValue(t[0])
  }

  /** Character extraction stores the first character that is not white
      space, and leaves the slot unset exactly when there is none. */
  lemma ExtractCharSpec(text: string)
    ensures var v := ExtractChar(text);
      && (v.Unset? <==> forall j :: 0 <= j < |text| ==> IsSpace(text[j]))
      && (v.CharValue? ==> exists k :: 0 <= k < |text| && v.c == text[k] && !IsSpace(text[k])
                                      && forall j :: 0 <= j < k ==> IsSpace(text[j]))
  {
    var t := SkipSpace(text);
    SkipSpaceSuffix(text);
    if t != [] {
      var k := |text| - |t|;
      assert t[0] == text[k];
    }
  }

  /** One slot of the record decoded from one field. */
  function Decode(t: TypeTag, text: string): (v: Value)
    ensures HasType(v, t)
    ensures t == StringType ==> v == StringValue(text)
    ensures v.IntValue? ==> IntMin <= v.n <= IntMax
  {
    match t
    case StringType => StringValue(text)
    case IntType => ExtractInt(text)
    case FloatType => FloatValue(text)
    case CharType => ExtractChar(text)
  }

  /** The value-initialised slot of a fresh `std::tuple`: 0, "", 0.0f and
      the NUL character (0.0f is what a float extracted from "0" is). */
  function DefaultValue(t: TypeTag): (v: Value)
    ensures HasType(v, t)
  {
    match t
    case IntType => IntValue(0)
    case StringType => StringValue([])
    case FloatType => FloatValue("0")
    case CharType => CharValue(0 as char)
  }

  // ---------------------------------------------------------------------
  // Integer extraction against decimal rendering

  /** Decimal digits of `n`, without leading zeros. */
  function NatDigits(n: nat): (ds: string)
    ensures ds != [] && AllDigits(ds)
  {
    if n < 10 then [DigitChar(n)] else NatDigits(n / 10) + [DigitChar(n % 10)]
  }

  /** `n` written in decimal, with a minus sign when negative. */
  function Decimal(n: int): string
  {
    if n < 0 then ['-'] + NatDigits(-n) else NatDigits(n)
  }

  lemma {:induction false} DigitsValueOfNatDigits(n: nat)
    ensures DigitsValue(NatDigits(n)) == n
  {
    if n >= 10 {
      var ds := NatDigits(n);
      assert ds[..|ds| - 1] == NatDigits(n / 10);
      DigitsValueOfNatDigits(n / 10);
    }
  }

  lemma DigitRunStops(ds: string, tail: string)
    requires AllDigits(ds)
    requires tail == [] || !IsDigit(tail[0])
    ensures DigitRun(ds + tail) == |ds|
    ensures (ds + tail)[..|ds|] == ds
  {
    var k := DigitRun(ds + tail);
    DigitRunSpec(ds + tail);
    assert forall j :: 0 <= j < |ds| ==> (ds + tail)[j] == ds[j];
    if |ds| < |ds + tail| {
      assert (ds + tail)[|ds|] == tail[0];
    }
  }

  lemma {:induction false} SkipSpacePrefix(ws: string, s: string)
    requires forall j :: 0 <= j < |ws| ==> IsSpace(ws[j])
    requires s != [] && !IsSpace(s[0])
    ensures SkipSpace(ws + s) == s
    decreases |ws|
  {
    if ws == [] {
      assert ws + s == s;
    } else {
      assert (ws + s)[0] == ws[0];
      assert (ws + s)[1..] == ws[1..] + s;
      SkipSpacePrefix(ws[1..], s);
    }
  }

  /** The optional sign `num_get` accepts in front of the digits. */
  predicate IsSign(sign: string)
  {
    sign == [] || sign == "-" || sign == "+"
  }

  /** Once white space is skipped: an optional `+` or `-`, then a run of
      digits that ends at a non-digit or the end, give the saturated signed
      value of those digits. */
  lemma ExtractSignedDigits(sign: string, ds: string, tail: string)
    requires IsSign(sign)
    requires ds != [] && AllDigits(ds)
    requires tail == [] || !IsDigit(tail[0])
    ensures ExtractSigned(sign + (ds + tail))
         == Clamp(if sign == "-" then -(DigitsValue(ds) as int) else DigitsValue(ds))
  {
    DigitRunStops(ds, tail);
    var t := sign + (ds + tail);
    if sign != [] {
      assert t[0] == sign[0] && t[1..] == ds + tail;
    } else {
      assert t == ds + tail;
      assert t[0] == ds[0];
    }
  }

  /** `ws + Decimal(n) + tail` is the white space, then the optional sign,
      the digits and the tail. */
  lemma DecimalLayout(ws: string, n: int, tail: string)
    ensures ws + Decimal(n) + tail
         == ws + ((if n < 0 then ['-'] else []) + (NatDigits(if n < 0 then -n else n) + tail))
  {
  }

  lemma SignedStart(sign: string, ds: string, tail: string)
    requires IsSign(sign)
    requires ds != [] && AllDigits(ds)
    ensures var s := sign + (ds + tail);
      s != [] && !IsSpace(s[0])
  {
  }

  /** A whole `int` field: white space, an optional `+` or `-`, then a run
      of digits ending at a non-digit or the end, stores the saturated
      signed value of those digits. */
  lemma ExtractIntSigned(ws: string, sign: string, ds: string, tail: string)
    requires forall j :: 0 <= j < |ws| ==> IsSpace(ws[j])
    requires IsSign(sign)
    requires ds != [] && AllDigits(ds)
    requires tail == [] || !IsDigit(tail[0])
    ensures ExtractInt(ws + (sign + (ds + tail)))
         == IntValue(Clamp(if sign == "-" then -(DigitsValue(ds) as int) else DigitsValue(ds)))
  {
    SignedStart(sign, ds, tail);
    SkipSpacePrefix(ws, sign + (ds + tail));
    ExtractSignedDigits(sign, ds, tail);
  }

  /** Extraction reads back what decimal rendering writes, saturated to the
      `int` range, ignoring leading white space and anything after the
      digits. */
  lemma ExtractIntDecimal(ws: string, n: int, tail: string)
    requires forall j :: 0 <= j < |ws| ==> IsSpace(ws[j])
    requires tail == [] || !IsDigit(tail[0])
    ensures ExtractInt(ws + Decimal(n) + tail) == IntValue(Clamp(n))
  {
    var negative := n < 0;
    var m: nat := if negative then -n else n;
    var ds := NatDigits(m);
    DecimalLayout(ws, n, tail);
    var sign := if negative then "-" else "";
    assert sign == (if negative then ['-'] else []);
    SignedStart(sign, ds, tail);
    SkipSpacePrefix(ws, sign + (ds + tail));
    ExtractSignedDigits(sign, ds, tail);
    DigitsValueOfNatDigits(m);
  }

  /** Every value of a 32-bit `int` survives rendering and extraction. */
  lemma ExtractIntRoundTrip(n: int)
    requires IntMin <= n <= IntMax
    ensures ExtractInt(Decimal(n)) == IntValue(n)
  {
    ExtractIntDecimal([], n, []);
    assert [] + Decimal(n) + [] == Decimal(n);
  }

  /** A field holding something besides white space but no digit at all
      decodes to 0 (failed numeric extraction). */
  lemma ExtractIntNoDigits(text: string)
    requires exists j :: 0 <= j < |text| && !IsSpace(text[j])
    requires forall j :: 0 <= j < |text| ==> !IsDigit(text[j])
    ensures ExtractInt(text) == IntValue(0)
  {
    var t := SkipSpace(text);
    SkipSpaceSuffix(text);
    assert forall j :: 0 <= j < |t| ==> t[j] == text[|text| - |t| + j];
    var body := if t != [] && (t[0] == '-' || t[0] == '+') then t[1..] else t;
    assert body != [] ==> !IsDigit(body[0]);
  }

  /** The C++11 rule for a failed numeric extraction in full: when no digit
      follows the white space and the optional sign, 0 is stored, whatever
      comes later (`a1`, `-x5`, `+ 7`, `--1`). */
  lemma ExtractIntNoLeadingDigit(ws: string, sign: string, tail: string)
    requires forall j :: 0 <= j < |ws| ==> IsSpace(ws[j])
    requires IsSign(sign)
    requires tail == [] || !IsDigit(tail[0])
    requires sign == [] ==> tail != [] && !IsSpace(tail[0]) && tail[0] != '-' && tail[0] != '+'
    ensures ExtractInt(ws + (sign + tail)) == IntValue(0)
  {
    SkipSpacePrefix(ws, sign + tail);
    if sign == [] {
      assert sign + tail == tail;
    } else {
      assert (sign + tail)[1..] == tail;
    }
  }

  /** A field with no digit stores 0 in an `int` slot. */
  lemma DecodeIntFailureExample()
    ensures Decode(IntType, "abc") == IntValue(0)
  {
    var s := "abc";
    assert !IsDigit(s[0]) && !IsDigit(s[1]) && !IsDigit(s[2]);
    assert !IsSpace(s[0]);
    ExtractIntNoDigits(s);
  }

  /** A blank `int` field stores nothing: the slot keeps its indeterminate
      value. */
  lemma DecodeIntBlankExample()
    ensures Decode(IntType, "") == Unset
    ensures Decode(IntType, "  ") == Unset
  {
  }

  /** Leading white space is skipped and digits stop at the first
      non-digit. */
  lemma DecodeIntExample()
    ensures Decode(IntType, " -42x") == IntValue(-42)
  {
    var ws, tail := " ", "x";
    ExampleLayout(ws, tail);
    assert IsSpace(ws[0]) && !IsDigit(tail[0]);
    ExtractIntDecimal(ws, -42, tail);
  }

  /** A leading `+` is accepted and does not change the value. */
  lemma DecodeIntPlusExample()
    ensures Decode(IntType, " +7") == IntValue(7)
  {
    var ws, sign, ds, tail := " ", "+", "7", "";
    assert IsSpace(ws[0]) && IsDigit(ds[0]);
    assert DigitsValue(ds) == 7 by { assert ds[..0] == []; }
    ExtractIntSigned(ws, sign, ds, tail);
    assert ws + (sign + (ds + tail)) == " +7";
  }

  lemma ExampleLayout(ws: string, tail: string)
    requires ws == " " && tail == "x"
    ensures ws + Decimal(-42) + tail == " -42x"
  {
    DecimalExample();
    assert ws + "-42" == " -42";
    assert " -42" + tail == " -42x";
  }

  lemma DecimalExample()
    ensures Decimal(-42) == "-42"
  {
    assert NatDigits(4) == "4";
    assert NatDigits(42) == NatDigits(4) + "2";
  }

  /** White space before a `char` is skipped; a blank field leaves it unset. */
  lemma DecodeCharExample()
    ensures Decode(CharType, " q") == CharValue('q')
    ensures Decode(CharType, " ") == Unset
  {
    var q := "q";
    assert !IsSpace(q[0]);
    SkipSpacePrefix(" ", q);
    assert " " + q == " q";
    assert ExtractChar(" q") == CharValue('q');
  }
}

=== FILE: input_stream.dfy ===
/**
 The character stream the parser reads, and `std::getline` over it.

 The stream is the text not yet read together with the two state bits the
 parser observes: `eof` (a read hit the end of the input) and `fail` (a read
 extracted nothing, or was attempted on a stream that was not good). Text
 already consumed plays no further part, so it is not kept.
 */
module InputStream {
  import opened TextSearch

  datatype Stream = Stream(unread: string, eof: bool, fail: bool)

  /** `good()`: neither state bit set. */
  predicate Good(s: Stream)
  {
    !s.eof && !s.fail
  }

  /** A freshly opened stream over `text`. */
  function Open(text: string): (s: Stream)
    ensures Good(s) && s.unread == text
  {
    Stream(text, false, false)
  }

  /** The outcome of one `std::getline`: whether it succeeded (the stream
      converts to `true`), the text stored, and the stream afterwards. */
  datatype LineRead = LineRead(ok: bool, line: string, rest: Stream)

  /** `std::getline(s, line, delim)`: on a good stream, extracts characters
      up to and including the next `delim`, storing all but the delimiter;
      reaching the end of the text first sets `eof`; extracting nothing at
      all sets `eof` and `fail`. On a stream that is not good, the sentry
      sets `fail` and nothing is read. */
  function GetLine(s: Stream, delim: char): (r: LineRead)
    ensures r.ok <==> Good(s) && s.unread != []
    ensures !r.ok ==> r.rest.unread == s.unread
    ensures s.eof ==> r.rest.eof
  {
    if !Good(s) then LineRead(false, [], s.(fail := true))
    else if s.unread == [] then LineRead(false, [], s.(eof := true, fail := true))
    else
      var i := IndexOf(s.unread, delim);
      if i < |s.unread| then LineRead(true, s.unread[..i], s.(unread := s.unread[i + 1..]))
      else LineRead(true, s.unread, s.(unread := [], eof := true))
  }

  /** What one `getline` does: it succeeds exactly on a good stream with
      text left; the stored line never holds the delimiter and, followed by
      the delimiter when one was found, is exactly the text consumed; a
      failed read consumes nothing and sets `fail`, and `eof` too unless
      `fail` was already set; `eof` is never cleared. */
  lemma GetLineSpec(s: Stream, delim: char)
    ensures var r := GetLine(s, delim);
      && (r.ok <==> Good(s) && s.unread != [])
      && (r.ok ==> delim !in r.line && !r.rest.fail && |r.rest.unread| < |s.unread|)
      && (r.ok && !r.rest.eof ==> s.unread == r.line + [delim] + r.rest.unread)
      && (r.ok && r.rest.eof ==> s.unread == r.line && r.rest.unread == [])
      && (!r.ok ==> r.rest.fail && r.rest.unread == s.unread)
      && (!r.ok && !s.fail ==> r.rest.eof)
      && (s.eof ==> r.rest.eof)
  {
    if Good(s) && s.unread != [] {
      var t := s.unread;
      var i := IndexOf(t, delim);
      if i < |t| {
        assert t == t[..i] + [delim] + t[i + 1..];
      }
    }
  }

  // ---------------------------------------------------------------------
  // The rows of a text

  /** The rows repeated `getline` calls deliver from `t`: the pieces between
      delimiters, with no trailing empty row after a final delimiter. */
  function Rows(t: string, delim: char): seq<string>
    decreases |t|
  {
    if t == [] then []
    else
      var i := IndexOf(t, delim);
      if i < |t| then [t[..i]] + Rows(t[i + 1..], delim) else [t]
  }

  /** Every row followed by the delimiter. */
  function Terminated(rows: seq<string>, delim: char): string
  {
    if rows == [] then [] else rows[0] + [delim] + Terminated(rows[1..], delim)
  }

  predicate NoDelimiter(rows: seq<string>, delim: char)
  {
    forall k :: 0 <= k < |rows| ==> delim !in rows[k]
  }

  lemma {:induction false} RowsOfTerminated(rows: seq<string>, delim: char)
    requires NoDelimiter(rows, delim)
    ensures Rows(Terminated(rows, delim), delim) == rows
    decreases |rows|
  {
    if rows != [] {
      var tail := Terminated(rows[1..], delim);
      assert Terminated(rows, delim) == rows[0] + ([delim] + tail);
      assert delim !in rows[0];
      IndexOfPrefix(rows[0], [delim] + tail, delim);
      assert Terminated(rows, delim)[|rows[0]| + 1..] == tail;
      RowsOfTerminated(rows[1..], delim);
    }
  }

  /** No row holds the delimiter. */
  lemma {:induction false} RowsNoDelimiter(t: string, delim: char)
    ensures NoDelimiter(Rows(t, delim), delim)
    decreases |t|
  {
    if t != [] {
      var i := IndexOf(t, delim);
      if i < |t| {
        var rows := Rows(t, delim);
        assert rows == [t[..i]] + Rows(t[i + 1..], delim);
        assert delim !in t[..i];
        RowsNoDelimiter(t[i + 1..], delim);
        assert forall k :: 1 <= k < |rows| ==> rows[k] == Rows(t[i + 1..], delim)[k - 1];
      }
    }
  }

  /** The first row of a text holding the delimiter, and the rest. */
  lemma RowsStep(t: string, delim: char)
    requires IndexOf(t, delim) < |t|
    ensures Rows(t, delim) == [t[..IndexOf(t, delim)]] + Rows(t[IndexOf(t, delim) + 1..], delim)
  {
  }

  /** A text that is empty or ends with the delimiter is exactly its rows,
      each terminated. */
  lemma {:induction false} TerminatedOfRows(t: string, delim: char)
    requires t == [] || t[|t| - 1] == delim
    ensures Terminated(Rows(t, delim), delim) == t
    decreases |t|
  {
    if t != [] {
      var i := IndexOf(t, delim);
      var tail := t[i + 1..];
      RowsStep(t, delim);
      TerminatedOfRows(tail, delim);
      TerminatedCons(t, i, Rows(tail, delim), delim);
    }
  }

  lemma TerminatedCons(t: string, i: nat, rows: seq<string>, delim: char)
    requires i < |t| && t[i] == delim
    requires Terminated(rows, delim) == t[i + 1..]
    ensures Terminated([t[..i]] + rows, delim) == t
  {
    var all := [t[..i]] + rows;
    assert all[0] == t[..i] && all[1..] == rows;
    assert t == t[..i] + [delim] + t[i + 1..];
  }

  /** One `getline` on a good stream delivers the first remaining row and
      leaves the others. */
  lemma GetLineRows(s: Stream, delim: char)
    requires Good(s)
    ensures GetLine(s, delim).ok <==> Rows(s.unread, delim) != []
    ensures GetLine(s, delim).ok ==>
      && GetLine(s, delim).line == Rows(s.unread, delim)[0]
      && Rows(GetLine(s, delim).rest.unread, delim) == Rows(s.unread, delim)[1..]
  {
    if s.unread != [] {
      RowsHead(s.unread, delim);
    }
  }

  /** The first row of a non-empty text, and the rows of the text after it. */
  lemma RowsHead(t: string, delim: char)
    requires t != []
    ensures var i := IndexOf(t, delim);
      && Rows(t, delim) != [] && Rows(t, delim)[0] == t[..i]
      && Rows(t, delim)[1..] == Rows(if i < |t| then t[i + 1..] else [], delim)
  {
    var i := IndexOf(t, delim);
    if i < |t| {
      RowsStep(t, delim);
      assert Rows(t, delim)[1..] == Rows(t[i + 1..], delim);
    } else {
      assert Rows(t, delim) == [t];
    }
  }

  /** `getline` on a good stream whose text starts with a terminated row. */
  lemma GetLineTerminated(s: Stream, delim: char, row: string, tail: string)
    requires Good(s)
    requires delim !in row
    requires s.unread == row + [delim] + tail
    ensures GetLine(s, delim) == LineRead(true, row, s.(unread := tail))
  {
    IndexOfPrefix(row, [delim] + tail, delim);
    assert row + [delim] + tail == row + ([delim] + tail);
    assert s.unread[..|row|] == row;
    assert s.unread[|row| + 1..] == tail;
  }

  // ---------------------------------------------------------------------
  // Skipping leading rows

  /** The constructor's loop: `getline` into a dummy string `n` times. */
  function SkipRows(s: Stream, delim: char, n: nat): (r: Stream)
    ensures |r.unread| <= |s.unread|
    ensures n > 0 && s.unread != [] && Good(s) ==> |r.unread| < |s.unread|
    ensures s.eof ==> r.eof
    decreases n
  {
    if n == 0 then s else SkipRows(GetLine(s, delim).rest, delim, n - 1)
  }

  /** Once `eof` is set, skipping keeps it set and reads nothing. */
  lemma {:induction false} SkipRowsAfterEof(s: Stream, delim: char, n: nat)
    requires s.eof
    ensures SkipRows(s, delim, n).eof && SkipRows(s, delim, n).unread == s.unread
    decreases n
  {
    if n > 0 {
      SkipRowsAfterEof(GetLine(s, delim).rest, delim, n - 1);
    }
  }

  /** Number of occurrences of `c` in `t`. */
  function Occurrences(t: string, c: char): nat
  {
    if t == [] then 0 else (if t[0] == c then 1 else 0) + Occurrences(t[1..], c)
  }

  lemma {:induction false} DelimiterCount(line: string, tail: string, delim: char)
    requires delim !in line
    ensures Occurrences(line + [delim] + tail, delim) == Occurrences(tail, delim) + 1
    ensures Occurrences(line, delim) == 0
    decreases |line|
  {
    if line == [] {
      assert line + [delim] + tail == [delim] + tail;
      assert ([delim] + tail)[1..] == tail;
    } else {
      assert (line + [delim] + tail)[1..] == line[1..] + [delim] + tail;
      DelimiterCount(line[1..], tail, delim);
    }
  }

  /** The first `getline` of a skip with rows left to skip: either it runs
      off the text, which then held no row delimiter and at most one row,
      or it leaves a good stream one delimiter and one row further on. */
  lemma SkipStep(s: Stream, delim: char, n: nat) returns (rest: Stream)
    requires Good(s) && n > 0
    ensures SkipRows(s, delim, n) == SkipRows(rest, delim, n - 1)
    ensures rest.eof ==> Occurrences(s.unread, delim) == 0 && |Rows(s.unread, delim)| <= 1 && rest.unread == []
    ensures !rest.eof ==> && Good(rest)
                          && Occurrences(s.unread, delim) == Occurrences(rest.unread, delim) + 1
                          && Rows(s.unread, delim) != []
                          && Rows(rest.unread, delim) == Rows(s.unread, delim)[1..]
  {
    var r := GetLine(s, delim);
    rest := r.rest;
    GetLineSpec(s, delim);
    GetLineRows(s, delim);
    if r.ok && r.rest.eof {
      DelimiterCount(r.line, [], delim);
    } else if r.ok {
      DelimiterCount(r.line, r.rest.unread, delim);
    }
  }

  /** Skipping runs off the input (and sets `eof`) exactly when there are
      fewer row delimiters left than rows to skip; otherwise the stream
      stays good. */
  lemma {:induction false} SkipRowsEof(s: Stream, delim: char, n: nat)
    requires Good(s)
    ensures SkipRows(s, delim, n).eof <==> n > Occurrences(s.unread, delim)
    ensures !SkipRows(s, delim, n).eof ==> Good(SkipRows(s, delim, n))
    decreases n
  {
    if n > 0 {
      var rest := SkipStep(s, delim, n);
      if rest.eof {
        SkipRowsAfterEof(rest, delim, n - 1);
      } else {
        SkipRowsEof(rest, delim, n - 1);
      }
    }
  }

  /** The rows left after skipping `n` of `rows`. */
  function Drop(rows: seq<string>, n: nat): seq<string>
  {
    if n <= |rows| then rows[n..] else []
  }

  /** Skipping stops for good once a read fails or hits the end. */
  lemma SkipRowsStops(s: Stream, delim: char, n: nat)
    requires Good(s) && n > 0
    requires !GetLine(s, delim).ok || GetLine(s, delim).rest.eof
    ensures Rows(SkipRows(s, delim, n).unread, delim) == []
    ensures Rows(SkipRows(s, delim, n).unread, delim) == Drop(Rows(s.unread, delim), n)
  {
    var r := GetLine(s, delim);
    assert SkipRows(s, delim, n) == SkipRows(r.rest, delim, n - 1);
    GetLineRows(s, delim);
    GetLineSpec(s, delim);
    SkipRowsAfterEof(r.rest, delim, n - 1);
  }

  /** Skipping discards exactly the first `n` rows, or all of them when
      there are fewer. */
  lemma {:induction false} SkipRowsDiscards(s: Stream, delim: char, n: nat)
    requires Good(s)
    ensures Rows(SkipRows(s, delim, n).unread, delim) == Drop(Rows(s.unread, delim), n)
    decreases n
  {
    var rows := Rows(s.unread, delim);
    if n == 0 {
      assert rows[0..] == rows;
    } else {
      var rest := SkipStep(s, delim, n);
      if rest.eof {
        SkipRowsAfterEof(rest, delim, n - 1);
      } else {
        SkipRowsDiscards(rest, delim, n - 1);
        if n <= |rows| {
          assert rows[1..][n - 1..] == rows[n..];
        }
      }
    }
  }

  /** Every further `getline` either reads normally or finds nothing: the
      stream is good, or no text is left. */
  predicate Settled(s: Stream)
  {
    Good(s) || s.unread == []
  }

  /** A read that stops at the end of the text consumes all of it, so
      skipping from a settled stream leaves it settled. */
  lemma {:induction false} SkipRowsSettled(s: Stream, delim: char, n: nat)
    requires Settled(s)
    ensures Settled(SkipRows(s, delim, n))
    decreases n
  {
    if n > 0 {
      GetLineSpec(s, delim);
      SkipRowsSettled(GetLine(s, delim).rest, delim, n - 1);
    }
  }

  /** On a text of terminated rows, skipping `n <= |rows|` of them leaves a
      good stream positioned on the remaining rows. */
  lemma {:induction false} SkipTerminated(s: Stream, delim: char, rows: seq<string>, n: nat)
    requires Good(s)
    requires NoDelimiter(rows, delim)
    requires s.unread == Terminated(rows, delim)
    requires n <= |rows|
    ensures SkipRows(s, delim, n) == s.(unread := Terminated(rows[n..], delim))
    decreases n
  {
    if n > 0 {
      var rest := TerminatedStep(s, delim, rows, n);
      SkipTerminated(rest, delim, rows[1..], n - 1);
      assert rows[1..][n - 1..] == rows[n..];
    }
  }

  /** One `getline` over terminated rows leaves a good stream on the
      others. */
  lemma TerminatedStep(s: Stream, delim: char, rows: seq<string>, n: nat) returns (rest: Stream)
    requires Good(s)
    requires NoDelimiter(rows, delim)
    requires s.unread == Terminated(rows, delim)
    requires rows != [] && n > 0
    ensures rest == s.(unread := Terminated(rows[1..], delim))
    ensures SkipRows(s, delim, n) == SkipRows(rest, delim, n - 1)
    ensures NoDelimiter(rows[1..], delim)
  {
    var tail := Terminated(rows[1..], delim);
    assert s.unread == rows[0] + [delim] + tail;
    assert delim !in rows[0];
    GetLineTerminated(s, delim, rows[0], tail);
    rest := GetLine(s, delim).rest;
    assert forall k :: 0 <= k < |rows| - 1 ==> rows[1..][k] == rows[k + 1];
  }
}

=== FILE: record_builder.dfy ===
/**
 Positional record building (`TuplePlaceholder::add`, Lab4/Main.cpp).

 The tuple type's element list becomes a schema, a sequence of type tags;
 the tuple becomes a record, a sequence of values. Slot N is decoded from
 field N for N = 0, 1, ..., |schema| - 1; the recursive template
 instantiation is a recursion on N. Field N is read without a bounds check,
 so a row must hold at least |schema| fields: that is a precondition here.
 */
module RecordBuilder {
  import opened FieldDecoder

  type Schema = seq<TypeTag>
  type Record = seq<Value>

  /** The tuple types the model covers: at least two elements (the program's
      own schema has four). */
  predicate ValidSchema(schema: Schema)
  {
    |schema| >= 2
  }

  /** Every slot of `r` holds a value of its column's type. */
  predicate WellTyped(r: Record, schema: Schema)
  {
    |r| == |schema| && forall i :: 0 <= i < |r| ==> HasType(r[i], schema[i])
  }

  /** `TuplePlaceholder<Tuple, Vector, n, Size>::add`: slots n .. |schema| - 1,
      each filled by `handle` (the template's `TypeHandler<T>::process`) from
      the field of the same position. */
  function PlaceFrom(handle: (TypeTag, string) -> Value, schema: Schema, fields: seq<string>, n: nat): (slots: Record)
    requires n < |schema| <= |fields|
    ensures |slots| == |schema| - n
    decreases |schema| - n
  {
    if n == |schema| - 1 then [handle(schema[n], fields[n])]
    else [handle(schema[n], fields[n])] + PlaceFrom(handle, schema, fields, n + 1)
  }

  /** Slot i of the record comes from placement step i: it is handled from
      field i with column i's type. */
  lemma {:induction false} PlaceFromSlot(handle: (TypeTag, string) -> Value, schema: Schema, fields: seq<string>, n: nat, i: nat)
    requires n <= i < |schema| <= |fields|
    ensures PlaceFrom(handle, schema, fields, n)[i - n] == handle(schema[i], fields[i])
    decreases i - n
  {
    if n < i {
      PlaceFromSlot(handle, schema, fields, n + 1, i);
      var head := [handle(schema[n], fields[n])];
      var tail := PlaceFrom(handle, schema, fields, n + 1);
      assert PlaceFrom(handle, schema, fields, n) == head + tail;
      assert (head + tail)[i - n] == tail[i - (n + 1)];
    }
  }

  lemma PlaceSlots(handle: (TypeTag, string) -> Value, schema: Schema, fields: seq<string>)
    requires 0 < |schema| <= |fields|
    ensures forall i :: 0 <= i < |schema| ==>
      PlaceFrom(handle, schema, fields, 0)[i] == handle(schema[i], fields[i])
  {
    forall i | 0 <= i < |schema|
      ensures PlaceFrom(handle, schema, fields, 0)[i] == handle(schema[i], fields[i])
    {
      PlaceFromSlot(handle, schema, fields, 0, i);
    }
  }

  /** The record built from one row's fields. */
  function Build(schema: Schema, fields: seq<string>): (r: Record)
    requires ValidSchema(schema)
    requires |fields| >= |schema|
    ensures |r| == |schema|
  {
    PlaceFrom(Decode, schema, fields, 0)
  }

  /** Slot i of the record is field i decoded with column i's type: it has
      that type, and a string slot holds the field verbatim. */
  lemma BuildSlots(schema: Schema, fields: seq<string>)
    requires ValidSchema(schema)
    requires |fields| >= |schema|
    ensures var r := Build(schema, fields);
      && WellTyped(r, schema)
      && (forall i :: 0 <= i < |r| ==> r[i] == Decode(schema[i], fields[i]))
      && (forall i :: 0 <= i < |r| && schema[i] == StringType ==> r[i] == StringValue(fields[i]))
  {
    PlaceSlots(Decode, schema, fields);
  }

  /** Fields past the schema's length are never read. */
  lemma BuildIgnoresExtraFields(schema: Schema, fields: seq<string>)
    requires ValidSchema(schema)
    requires |fields| >= |schema|
    ensures Build(schema, fields) == Build(schema, fields[..|schema|])
  {
    BuildSlots(schema, fields);
    BuildSlots(schema, fields[..|schema|]);
  }

  /** The record of a freshly constructed iterator: every slot
      value-initialised. */
  function DefaultRecord(schema: Schema): (r: Record)
    ensures WellTyped(r, schema)
    ensures forall i :: 0 <= i < |r| ==> r[i] == DefaultValue(schema[i])
  {
    seq(|schema|, i requires 0 <= i < |schema| => DefaultValue(schema[i]))
  }
}

=== FILE: row_splitter.dfy ===
/**
 The row splitter of the CSV parser (`Iterator::parseLine`, Lab4/Main.cpp).

 One logical row is scanned left to right with an `escape_flag` bit and a
 field accumulator:
 - an unescaped column delimiter closes the current field;
 - a doubled escape symbol adds one literal escape symbol (this check comes
   first, so it applies inside and outside a quoted span alike);
 - a lone escape symbol toggles the flag and adds nothing;
 - every other character is appended;
 - the last accumulator is always emitted as the final field, even when a
   quoted span is still open.
 */
module RowSplitter {
  import opened TextSearch

  /** The scanner state machine: `rest` is the unread part of the row,
      `inEscape` the escape flag, `acc` the field being accumulated. */
  function Scan(rest: string, d: char, e: char, inEscape: bool, acc: string): seq<string>
    decreases |rest|
  {
    if rest == [] then [acc]
    else if rest[0] == d && !inEscape then [acc] + Scan(rest[1..], d, e, inEscape, [])
    else if rest[0] == e then
      if |rest| > 1 && rest[1] == e then Scan(rest[2..], d, e, inEscape, acc + [e])
      else Scan(rest[1..], d, e, !inEscape, acc)
    else Scan(rest[1..], d, e, inEscape, acc + [rest[0]])
  }

  /** The fields of `line` with column delimiter `d` and escape symbol `e`. */
  function Split(line: string, d: char, e: char): (fields: seq<string>)
    ensures |fields| == UnescapedDelimiters(line, d, e, false) + 1
    ensures |fields| >= 1
  {
    ScanFieldCount(line, d, e, false, []);
    Scan(line, d, e, false, [])
  }

  /** The loop of `parseLine`, statement by statement; `delims` is the value
      `_cur_col` reaches (it is reset to 0 before the call). */
  method ParseLine(line: string, d: char, e: char) returns (fields: seq<string>, delims: nat)
    ensures fields == Split(line, d, e)
    ensures delims + 1 == |fields|
  {
    var escapeFlag := false;
    var col: string := [];
    fields := [];
    delims := 0;
    var i := 0;
    while i < |line|
      invariant 0 <= i <= |line|
      invariant fields + Scan(line[i..], d, e, escapeFlag, col) == Split(line, d, e)
      invariant delims == |fields|
    {
      assert line[i..][0] == line[i] && line[i..][1..] == line[i + 1..];
      if line[i] == d && !escapeFlag {
        delims := delims + 1;
        fields := fields + [col];
        col := [];
      } else if line[i] == e {
        if i != |line| - 1 && line[i + 1] == e {
          assert line[i..][2..] == line[i + 2..];
          i := i + 1;
          col := col + [e];
        } else if !escapeFlag {
          escapeFlag := true;
        } else {
          escapeFlag := false;
        }
      } else {
        col := col + [line[i]];
      }
      i := i + 1;
    }
    fields := fields + [col];
  }

  // ---------------------------------------------------------------------
  // Field count

  /** Number of column delimiters the scan meets while the escape flag is
      clear (the delimiters that close a field). */
  function UnescapedDelimiters(rest: string, d: char, e: char, inEscape: bool): nat
    decreases |rest|
  {
    if rest == [] then 0
    else if rest[0] == d && !inEscape then 1 + UnescapedDelimiters(rest[1..], d, e, inEscape)
    else if rest[0] == e then
      if |rest| > 1 && rest[1] == e then UnescapedDelimiters(rest[2..], d, e, inEscape)
      else UnescapedDelimiters(rest[1..], d, e, !inEscape)
    else UnescapedDelimiters(rest[1..], d, e, inEscape)
  }

  lemma {:induction false} ScanFieldCount(rest: string, d: char, e: char, inEscape: bool, acc: string)
    ensures |Scan(rest, d, e, inEscape, acc)| == UnescapedDelimiters(rest, d, e, inEscape) + 1
    decreases |rest|
  {
    if rest == [] {
    } else if rest[0] == d && !inEscape {
      ScanFieldCount(rest[1..], d, e, inEscape, []);
    } else if rest[0] == e {
      if |rest| > 1 && rest[1] == e {
        ScanFieldCount(rest[2..], d, e, inEscape, acc + [e]);
      } else {
        ScanFieldCount(rest[1..], d, e, !inEscape, acc);
      }
    } else {
      ScanFieldCount(rest[1..], d, e, inEscape, acc + [rest[0]]);
    }
  }

  /** The empty row is one empty field. */
  lemma SplitEmptyLine(d: char, e: char)
    ensures Split([], d, e) == [[]]
  {
  }

  // ---------------------------------------------------------------------
  // Rows without escape symbols: plain splitting on the delimiter

  /** The pieces of `s` between occurrences of `d` (no escaping at all). */
  function SplitOn(s: string, d: char): (pieces: seq<string>)
    ensures |pieces| >= 1
    decreases |s|
  {
    var i := IndexOf(s, d);
    if i == |s| then [s] else [s[..i]] + SplitOn(s[i + 1..], d)
  }

  /** The pieces joined back with `d` between consecutive ones. */
  function Join(pieces: seq<string>, d: char): string
    requires |pieces| >= 1
  {
    if |pieces| == 1 then pieces[0] else pieces[0] + [d] + Join(pieces[1..], d)
  }

  lemma {:induction false} JoinSplitOn(s: string, d: char)
    ensures Join(SplitOn(s, d), d) == s
    decreases |s|
  {
    var i := IndexOf(s, d);
    if i < |s| {
      var tail := SplitOn(s[i + 1..], d);
      assert SplitOn(s, d) == [s[..i]] + tail;
      assert ([s[..i]] + tail)[1..] == tail;
      assert Join(SplitOn(s, d), d) == s[..i] + [d] + Join(tail, d);
      JoinSplitOn(s[i + 1..], d);
      assert s == s[..i] + [d] + s[i + 1..];
    }
  }

  lemma {:induction false} SplitOnJoin(pieces: seq<string>, d: char)
    requires |pieces| >= 1
    requires forall k :: 0 <= k < |pieces| ==> d !in pieces[k]
    ensures SplitOn(Join(pieces, d), d) == pieces
  {
    if |pieces| > 1 {
      var s := Join(pieces, d);
      assert s == pieces[0] + ([d] + Join(pieces[1..], d));
      IndexOfPrefix(pieces[0], [d] + Join(pieces[1..], d), d);
      assert s[|pieces[0]| + 1..] == Join(pieces[1..], d);
      SplitOnJoin(pieces[1..], d);
    } else {
      assert d !in pieces[0];
    }
  }

  /** Scanning a stretch without delimiter or escape symbol only appends it. */
  lemma {:induction false} ScanPlain(p: string, rest: string, d: char, e: char, inEscape: bool, acc: string)
    requires d !in p && e !in p
    ensures Scan(p + rest, d, e, inEscape, acc) == Scan(rest, d, e, inEscape, acc + p)
    decreases |p|
  {
    if p != [] {
      assert (p + rest)[0] == p[0] && (p + rest)[1..] == p[1..] + rest;
      ScanPlain(p[1..], rest, d, e, inEscape, acc + [p[0]]);
      assert acc + [p[0]] + p[1..] == acc + p;
    } else {
      assert p + rest == rest && acc + p == acc;
    }
  }

  lemma {:induction false} ScanNoEscape(s: string, d: char, e: char, acc: string)
    requires e !in s
    ensures Scan(s, d, e, false, acc) == [acc + SplitOn(s, d)[0]] + SplitOn(s, d)[1..]
    decreases |s|
  {
    var i := IndexOf(s, d);
    if i == |s| {
      ScanPlain(s, [], d, e, false, acc);
      assert s + [] == s;
    } else {
      var rest := s[i + 1..];
      assert s == s[..i] + ([d] + rest);
      ScanPlain(s[..i], [d] + rest, d, e, false, acc);
      assert ([d] + rest)[1..] == rest;
      ScanNoEscape(rest, d, e, []);
      var pieces := SplitOn(rest, d);
      assert [] + pieces[0] == pieces[0];
      assert [pieces[0]] + pieces[1..] == pieces;
      assert Scan(rest, d, e, false, []) == pieces;
    }
  }

  /** A row holding no escape symbol splits into exactly the pieces between
      column delimiters; joining them with the delimiter gives the row back. */
  lemma SplitWithoutEscape(line: string, d: char, e: char)
    requires e !in line
    ensures Split(line, d, e) == SplitOn(line, d)
    ensures Join(Split(line, d, e), d) == line
  {
    ScanNoEscape(line, d, e, []);
    var p := SplitOn(line, d);
    var empty: string := [];
    assert empty + p[0] == p[0];
    assert [p[0]] + p[1..] == p;
    JoinSplitOn(line, d);
  }

  /** A row with neither delimiter nor escape symbol is a single field. */
  lemma SplitSingleField(line: string, d: char, e: char)
    requires d !in line && e !in line
    ensures Split(line, d, e) == [line]
  {
    SplitWithoutEscape(line, d, e);
  }

  // ---------------------------------------------------------------------
  // Escape handling

  /** A lone escape symbol toggles the flag and contributes nothing. */
  lemma LoneEscapeToggles(rest: string, d: char, e: char, inEscape: bool, acc: string)
    requires d != e || inEscape
    requires rest == [] || rest[0] != e
    ensures Scan([e] + rest, d, e, inEscape, acc) == Scan(rest, d, e, !inEscape, acc)
  {
    assert ([e] + rest)[1..] == rest;
  }

  /** A doubled escape symbol adds one escape character and keeps the flag,
      inside or outside a quoted span. */
  lemma DoubledEscapeIsLiteral(rest: string, d: char, e: char, inEscape: bool, acc: string)
    requires d != e || inEscape
    ensures Scan([e, e] + rest, d, e, inEscape, acc) == Scan(rest, d, e, inEscape, acc + [e])
  {
    assert ([e, e] + rest)[2..] == rest;
  }

  /** The scan of the example row below once its first escape symbol has
      been read. */
  lemma QuotedSpanTail()
    ensures Scan("b,c\",d", ',', '"', true, "") == ["b,c", "d"]
  {
    assert Scan("", ',', '"', false, "d") == ["d"];
    assert "d"[1..] == "";
    assert "" + ['d'] == "d";
    assert Scan("d", ',', '"', false, "") == ["d"];
    assert ",d"[1..] == "d";
    assert Scan(",d", ',', '"', false, "b,c") == ["b,c", "d"];
    assert "\",d"[1..] == ",d";
    assert Scan("\",d", ',', '"', true, "b,c") == ["b,c", "d"];
    assert "c\",d"[1..] == "\",d";
    assert "b," + ['c'] == "b,c";
    assert Scan("c\",d", ',', '"', true, "b,") == ["b,c", "d"];
    assert ",c\",d"[1..] == "c\",d";
    assert "b" + [','] == "b,";
    assert Scan(",c\",d", ',', '"', true, "b") == ["b,c", "d"];
    assert "b,c\",d"[1..] == ",c\",d";
    assert "" + ['b'] == "b";
    assert Scan("b,c\",d", ',', '"', true, "") == ["b,c", "d"];
  }

  /** Delimiters inside a quoted span are data; quotes are dropped. */
  lemma QuotedDelimiterExample()
    ensures Split("a,\"b,c\",d", ',', '"') == ["a", "b,c", "d"]
  {
    QuotedSpanTail();
    assert "\"b,c\",d"[1..] == "b,c\",d";
    assert Scan("\"b,c\",d", ',', '"', false, "") == ["b,c", "d"];
    assert ",\"b,c\",d"[1..] == "\"b,c\",d";
    assert Scan(",\"b,c\",d", ',', '"', false, "a") == ["a", "b,c", "d"];
    assert "a,\"b,c\",d"[1..] == ",\"b,c\",d";
    assert "" + ['a'] == "a";
  }

  /** A quoted span left open at the end of the row is not an error: its text
      becomes the last field. */
  lemma OpenSpanExample()
    ensures Split("a,\"b,c", ',', '"') == ["a", "b,c"]
  {
    assert Scan("", ',', '"', true, "b,c") == ["b,c"];
    assert "c"[1..] == "";
    assert "b," + ['c'] == "b,c";
    assert Scan("c", ',', '"', true, "b,") == ["b,c"];
    assert ",c"[1..] == "c";
    assert "b" + [','] == "b,";
    assert Scan(",c", ',', '"', true, "b") == ["b,c"];
    assert "b,c"[1..] == ",c";
    assert "" + ['b'] == "b";
    assert Scan("b,c", ',', '"', true, "") == ["b,c"];
    assert "\"b,c"[1..] == "b,c";
    assert Scan("\"b,c", ',', '"', false, "") == ["b,c"];
    assert ",\"b,c"[1..] == "\"b,c";
    assert Scan(",\"b,c", ',', '"', false, "a") == ["a", "b,c"];
    assert "a,\"b,c"[1..] == ",\"b,c";
    assert "" + ['a'] == "a";
  }

  /** Because the doubled-escape check runs before toggling, four escape
      symbols are two literal ones: the row `""""` is the field `""`, not
      the single `"` that RFC 4180 quoting would give. */
  lemma FourQuotesExample()
    ensures Split("\"\"\"\"", ',', '"') == ["\"\""]
  {
    assert Scan("", ',', '"', false, "\"\"") == ["\"\""];
    assert "\"\""[2..] == "";
    assert "\"" + ['\"'] == "\"\"";
    assert Scan("\"\"", ',', '"', false, "\"") == ["\"\""];
    assert "\"\"\"\""[2..] == "\"\"";
    assert "" + ['\"'] == "\"";
  }

  // ---------------------------------------------------------------------
  // An encoder this splitter inverts

  /** Every escape symbol written twice. */
  function DoubleEscapes(f: string, e: char): string
  {
    if f == [] then []
    else (if f[0] == e then [e, e] else [f[0]]) + DoubleEscapes(f[1..], e)
  }

  /** Length of the run of escape symbols that starts `f`. */
  function LeadingEscapes(f: string, e: char): (k: nat)
    ensures k <= |f|
    ensures forall j :: 0 <= j < k ==> f[j] == e
    ensures k < |f| ==> f[k] != e
  {
    if f != [] && f[0] == e then 1 + LeadingEscapes(f[1..], e) else 0
  }

  /** One field written so that this splitter reads it back: escape symbols
      doubled, and a field holding the delimiter wrapped in a quoted span.
      The span opens only after the leading run of escape symbols, because
      an opening escape followed by an escape would read as a doubled one. */
  function Quote(f: string, d: char, e: char): string
  {
    if d !in f then DoubleEscapes(f, e)
    else
      var k := LeadingEscapes(f, e);
      DoubleEscapes(f[..k], e) + [e] + DoubleEscapes(f[k..], e) + [e]
  }

  /** The fields quoted and joined with the delimiter. */
  function Render(fields: seq<string>, d: char, e: char): string
    requires |fields| >= 1
  {
    if |fields| == 1 then Quote(fields[0], d, e)
    else Quote(fields[0], d, e) + [d] + Render(fields[1..], d, e)
  }

  lemma {:induction false} ScanDoubled(g: string, rest: string, d: char, e: char, inEscape: bool, acc: string)
    requires d != e
    requires inEscape || d !in g
    ensures Scan(DoubleEscapes(g, e) + rest, d, e, inEscape, acc) == Scan(rest, d, e, inEscape, acc + g)
    decreases |g|
  {
    if g == [] {
      assert DoubleEscapes(g, e) + rest == rest && acc + g == acc;
    } else {
      var tail := DoubleEscapes(g[1..], e) + rest;
      assert acc + [g[0]] + g[1..] == acc + g;
      if g[0] == e {
        assert DoubleEscapes(g, e) + rest == [e, e] + tail;
        DoubledEscapeIsLiteral(tail, d, e, inEscape, acc);
      } else {
        assert DoubleEscapes(g, e) + rest == [g[0]] + tail;
        assert ([g[0]] + tail)[1..] == tail;
      }
      ScanDoubled(g[1..], rest, d, e, inEscape, acc + [g[0]]);
    }
  }

  /** A quoted span around a field that does not start with the escape
      symbol reads back as that field, and leaves the flag clear. */
  lemma ScanOpenQuoted(f: string, rest: string, d: char, e: char, acc: string)
    requires d != e
    requires f != [] && f[0] != e
    requires rest == [] || rest[0] == d
    ensures Scan([e] + DoubleEscapes(f, e) + [e] + rest, d, e, false, acc) == Scan(rest, d, e, false, acc + f)
  {
    var body := DoubleEscapes(f, e);
    var close := [e] + rest;
    assert body[0] == f[0];
    assert [e] + body + [e] + rest == [e] + (body + close);
    LoneEscapeToggles(body + close, d, e, false, acc);
    ScanDoubled(f, close, d, e, true, acc);
    LoneEscapeToggles(rest, d, e, true, acc + f);
  }

  lemma ScanQuoted(f: string, rest: string, d: char, e: char, acc: string)
    requires d != e
    requires rest == [] || rest[0] == d
    ensures Scan(Quote(f, d, e) + rest, d, e, false, acc) == Scan(rest, d, e, false, acc + f)
  {
    if d !in f {
      ScanDoubled(f, rest, d, e, false, acc);
    } else {
      ScanSpanQuoted(f, LeadingEscapes(f, e), rest, d, e, acc);
    }
  }

  /** The quoted form of a field holding the delimiter: the leading escape
      symbols doubled, then the quoted span. */
  lemma ScanSpanQuoted(f: string, k: nat, rest: string, d: char, e: char, acc: string)
    requires d != e && d in f
    requires k == LeadingEscapes(f, e)
    requires rest == [] || rest[0] == d
    ensures Scan(Quote(f, d, e) + rest, d, e, false, acc) == Scan(rest, d, e, false, acc + f)
  {
    QuoteShape(f, k, rest, d, e);
    ScanHeadThenSpan(f[..k], f[k..], rest, d, e, acc);
    AppendSplit(acc, f, k);
  }

  lemma QuoteShape(f: string, k: nat, rest: string, d: char, e: char)
    requires d != e && d in f
    requires k == LeadingEscapes(f, e)
    ensures k < |f| && d !in f[..k] && f[k..][0] != e
    ensures Quote(f, d, e) + rest
         == DoubleEscapes(f[..k], e) + ([e] + DoubleEscapes(f[k..], e) + [e] + rest)
  {
    LeadingEscapesBound(f, k, d, e);
    ConcatShape(DoubleEscapes(f[..k], e), DoubleEscapes(f[k..], e), rest, e);
  }

  /** A field holding the delimiter does not consist of escape symbols. */
  lemma LeadingEscapesBound(f: string, k: nat, d: char, e: char)
    requires d != e && d in f
    requires k == LeadingEscapes(f, e)
    ensures k < |f| && d !in f[..k] && f[k..][0] != e
  {
  }

  lemma ConcatShape(head: string, body: string, rest: string, e: char)
    ensures head + [e] + body + [e] + rest == head + ([e] + body + [e] + rest)
  {
  }

  lemma AppendSplit(acc: string, f: string, k: nat)
    requires k <= |f|
    ensures acc + f[..k] + f[k..] == acc + f
  {
    assert f[..k] + f[k..] == f;
  }

  lemma ScanHeadThenSpan(p: string, q: string, rest: string, d: char, e: char, acc: string)
    requires d != e && d !in p
    requires q != [] && q[0] != e
    requires rest == [] || rest[0] == d
    ensures Scan(DoubleEscapes(p, e) + ([e] + DoubleEscapes(q, e) + [e] + rest), d, e, false, acc)
         == Scan(rest, d, e, false, acc + p + q)
  {
    ScanDoubled(p, [e] + DoubleEscapes(q, e) + [e] + rest, d, e, false, acc);
    ScanOpenQuoted(q, rest, d, e, acc + p);
  }

  /** Splitting inverts rendering: every list of fields survives a round
      trip through `Render`, whatever delimiters and escapes they hold. */
  lemma {:induction false} SplitRender(fields: seq<string>, d: char, e: char)
    requires d != e
    requires |fields| >= 1
    ensures Split(Render(fields, d, e), d, e) == fields
    decreases |fields|
  {
    if |fields| == 1 {
      var empty: string := [];
      ScanQuoted(fields[0], [], d, e, empty);
      assert Render(fields, d, e) + [] == Render(fields, d, e);
      assert empty + fields[0] == fields[0] && [fields[0]] == fields;
    } else {
      var tail := Render(fields[1..], d, e);
      assert Render(fields, d, e) == Quote(fields[0], d, e) + ([d] + tail);
      var empty: string := [];
      ScanQuoted(fields[0], [d] + tail, d, e, empty);
      assert empty + fields[0] == fields[0];
      assert ([d] + tail)[1..] == tail;
      SplitRender(fields[1..], d, e);
      assert [fields[0]] + fields[1..] == fields;
    }
  }
}

=== FILE: text_search.dfy ===
/**
 Searching a text for a separator character, shared by the row splitter
 and the stream's `getline`.
 */
module TextSearch {
  /** Index of the first `c` in `s`, or `|s|` when there is none. */
  function IndexOf(s: string, c: char): (i: nat)
    ensures i <= |s|
    ensures i < |s| ==> s[i] == c
    ensures forall j :: 0 <= j < i ==> s[j] != c
  {
    if s == [] then 0
    else if s[0] == c then 0
    else 1 + IndexOf(s[1..], c)
  }

  /** The first `c` of `p + q` is the one that starts `q` when `p` has
      none. */
  lemma IndexOfPrefix(p: string, q: string, c: char)
    requires c !in p
    requires q != [] && q[0] == c
    ensures IndexOf(p + q, c) == |p|
  {
    assert forall j :: 0 <= j < |p| ==> (p + q)[j] == p[j];
    assert (p + q)[|p|] == c;
  }
}
